=== FILE: README.md ===
# Water effect: a Dafny model

This project models the core of `WaterEffect`, a 2D water-ripple effect. The
effect keeps three things:

- a parameter store: planar waves, fixed ripples, time-limited click ripples, a
  click-ripple template, shading parameters, a click-ripple limit and a grid size;
- a triangle mesh over the canvas: a displaced vertex buffer, a rest ("origin")
  buffer, a previous-frame buffer and an index buffer;
- a per-frame update that moves every vertex.

The update moves each vertex to its rest position plus the summed offsets of
all emitters. It erases expired click ripples along the way. It clamps the
mesh edges to the canvas and derives each vertex's alpha from how far the
vertex moved since the last frame.

Modules, following the program's structure:

- `WaterParams`: the parameter records and their default member initialisers (`WaterEffect.h`).
- `WaterMath`: the numeric primitives.
  - sin, cos, atan2, exp and the vector length sqrt(dx²+dy²) are uninterpreted functions carried by a `MathLib` value.
  - `SDL_clamp` is modelled as `Clamp`.
  - Float division is modelled as `Quot`.
- `WaterStore`: the value-level rules of the setters.
  - the cached wave normal;
  - the `size_t` comparison behind the click-ripple limit;
  - the click template.
- `WaterGrid`: the mesh `initGrid` builds, as functions. Lemmas give the closed forms (vertex (y, x) at index y(n+1)+x, cell (y, x) at indices 6(yn+x)..6(yn+x)+5), the mesh geometry and index ranges.
- `WaterFrame`: what one frame computes for one vertex, and for the whole buffer.
- `Water`: the class `WaterEffect`.
  - Its fields are the store and the four buffers.
  - Its methods are the setters, `InitGrid` and `Update`.
  - The nested loops of `initGrid` and `_update` are methods with loop invariants, each proved against the functions of `WaterGrid` and `WaterFrame`.

Floats are modelled as exact reals.

Where the code and its own documentation disagree, the model follows the code:

- The comment on `setGridSize` (`WaterEffect.cpp:106`) says the grid is rebuilt. The code only stores the size, so the new size takes effect at the next `InitGrid`.
- `initGrid` clears the displaced and rest buffers but not the previous-frame buffer. It appends the new vertices to that buffer (`InitGrid`'s contract).
- The top-row test `i <= gridSize + 1` also covers vertex n+1, the first vertex of row 1. So with no emitters at all, that vertex still leaves its rest position when its row lies below y = 0 (`FirstVertexOfRowOnePinnedToTop`). Every other vertex of the lattice `initGrid` builds does stay put (`NoEmittersLatticeAtRest`).

## Model

| member | source | states |
|---|---|---|
| WaterParams.DefaultEffectParamsValues | WaterEffect.h:77-86 | a default configuration has grid size 30, limit 5, no waves, no fixed and no click ripples, the default template and default shading |
| WaterParams.DefaultLightValues | WaterEffect.h:63-70 | default shading: threshold 0, alpha 1, minimum alpha 0, decay 10, angle 0 |
| WaterParams.DefaultRippleValues | WaterEffect.h:12-30 | default ripple and click-ripple records are all zero |
| WaterMath.Clamp | WaterEffect.cpp:309-310 | SDL_clamp: x below lo gives lo; x above hi (and not below lo) gives hi; x within [lo, hi] is returned unchanged; with lo <= hi the result lies in [lo, hi] |
| WaterMath.Quot | WaterEffect.cpp:256-257 | float division by a divisor that may be zero: for a non-zero divisor the quotient times the divisor gives back the dividend (also used for the division by decay at line 302) |
| WaterMath.Abs | WaterEffect.cpp:254 | the absolute value is non-negative and is x or -x |
| WaterStore.Calculated | WaterEffect.h:53-54 | a stored wave's cached normal (A, B) is (cos angle, -sin angle); CalculateWave establishes it |
| WaterStore.CalculateWave | WaterEffect.cpp:124-132 | the stored wave keeps its parameters and caches a normal consistent with its angle (A = cos angle, B = -sin angle) |
| WaterStore.AsSizeT | WaterEffect.cpp:161 | converting the int limit to size_t keeps a non-negative value and wraps a negative one to at least 2^64 - 2^31 |
| WaterStore.NegativeMaxIsNoCap | WaterEffect.cpp:161 | a negative limit never refuses a ripple (for any count below 2^63) |
| WaterStore.NonNegativeMaxIsCap | WaterEffect.cpp:161 | under a non-negative limit, a ripple is accepted exactly when the count is below the limit |
| WaterStore.HasRoom | WaterEffect.cpp:161 | the room test compares the count with the limit converted to size_t; a predicate without a contract of its own, whose meaning NegativeMaxIsNoCap and NonNegativeMaxIsCap state |
| WaterStore.AddClick | WaterEffect.cpp:159-166 | the ripple is appended exactly when there is room; otherwise the list is unchanged; the existing ripples are kept in front either way |
| WaterStore.AddClicks | WaterEffect.cpp:159-166 | a series of insertions keeps the original ripples as a prefix and adds at most one ripple per insertion |
| WaterStore.AddClicksSaturate | WaterEffect.cpp:159-166 | inserting ripples one by one under a non-negative limit fills the list to min(count + inserted, limit) and keeps the original ripples as a prefix |
| WaterStore.SixInsertsUnderDefaultCap | WaterEffect.h:82 | with the default limit of 5, six insertions into an empty list leave exactly five ripples |
| WaterStore.FromTemplate | WaterEffect.cpp:175-182 | the ripple built from the template takes the given centre and start time and keeps the template's life time, amplitude, frequency and density |
| WaterGrid.Steps | WaterEffect.cpp:363-367 | the coordinate the builder reaches after k steps of d; a definition without a contract of its own, whose value StepsIsProduct states |
| WaterGrid.StepsIsProduct | WaterEffect.cpp:363-367 | accumulating k steps of d, as the builder does, gives k·d in exact arithmetic |
| WaterGrid.GridVertex | WaterEffect.cpp:346-362 | the vertex of row y, column x; a definition without a contract of its own, whose values GridBoundary and GridCorners state |
| WaterGrid.GridVertices | WaterEffect.cpp:341-368 | the whole vertex buffer holds (n+1)² vertices; GridVertexAt places each one |
| WaterGrid.CellIndices | WaterEffect.cpp:372-383 | a cell contributes six indices, two triangles |
| WaterGrid.GridIndices | WaterEffect.cpp:370-385 | the whole index buffer holds 6n² indices; GridCellAt places each cell's six |
| WaterGrid.GridVertexAt | WaterEffect.cpp:341-368 | the vertex buffer holds (n+1)² vertices, and the one at y(n+1)+x is the vertex of row y, column x |
| WaterGrid.GridBoundary | WaterEffect.cpp:341-368 | vertex (y, x) has colour (1, 1, 1, defaultAlpha); column 0 and row 0 lie at coordinate 0 and texture coordinate 0; column n and row n lie at exactly width and height with texture coordinate 1; interior columns and rows lie at x·w/n and y·h/n |
| WaterGrid.GridCorners | WaterEffect.cpp:341-368 | the four corner vertices lie on the canvas corners with texture coordinates (0,0), (1,0), (0,1) and (1,1) |
| WaterGrid.GridIndicesInRange | WaterEffect.cpp:370-385 | the index buffer holds 6n² indices, each naming one of the (n+1)² vertices |
| WaterGrid.CellIndicesBelow | WaterEffect.cpp:372-383 | both triangles of a cell inside the lattice use only lattice vertices |
| WaterGrid.GridCellAt | WaterEffect.cpp:370-385 | cell (y, x) occupies positions 6(yn+x) to 6(yn+x)+5, which hold tl, tl+1, bl, tl+1, bl+1, bl with tl = y(n+1)+x and bl = (y+1)(n+1)+x |
| WaterGrid.ColumnRowArithmetic | WaterEffect.cpp:264-287 | the column test i % (n+1) is the column of vertex i, and the bottom-row test i >= (n+1)n holds exactly when vertex i lies in row n or below |
| WaterGrid.RowColumnSplit | WaterEffect.cpp:264-287 | every index is its row times n+1 plus its column |
| WaterGrid.LatticeTopLeftEdges | WaterEffect.cpp:341-368 | on the lattice, column 0 lies on x = 0 and the first n+1 vertices (row 0) on y = 0 |
| WaterFrame.WaveTerm | WaterEffect.cpp:220-229 | a planar wave moves a vertex along the wave's cached normal (A, B) only |
| WaterFrame.LineOffset | WaterEffect.cpp:222-226 | a wave of amplitude 0 displaces nothing; a wave of density 0 displaces by amplitude·sin(frequency·t) wherever the vertex is |
| WaterFrame.WavePhase | WaterEffect.cpp:222-226 | a wave of density 0 has the phase frequency·t at every position |
| WaterFrame.FixedTerm | WaterEffect.cpp:230-239 | a fixed ripple moves a vertex along (cos angle, -sin angle), with angle = atan2(-dy, dx) from the ripple centre; a ripple of amplitude 0 moves nothing |
| WaterFrame.ClickTerm | WaterEffect.cpp:250-257 | away from the pole t = startTime - 1, a click ripple moves a vertex along (cos angle, sin angle), with angle = atan2(dy, dx) from the ripple centre; a ripple of amplitude 0 moves nothing |
| WaterFrame.Offset | WaterEffect.cpp:218-258 | the total offset is the waves' sum plus the fixed ripples' sum plus the click ripples' sum; a definition without a contract of its own, whose properties NoEmittersNoOffset and SumOrderIrrelevant state |
| WaterFrame.ZeroDensityWaveIsUniform | WaterEffect.cpp:220-229 | a wave of zero density and angle 0 moves every vertex alike, by amplitude·sin(frequency·t) along x and not at all along y |
| WaterFrame.FrozenFixedRippleIsStatic | WaterEffect.cpp:230-239 | a fixed ripple of zero frequency and zero density pushes every vertex by exactly its amplitude, radially along (cos angle, -sin angle), at every time |
| WaterFrame.Sum | WaterEffect.cpp:220-258 | the sum of one emitter kind's terms over its list; a definition without a contract of its own, whose properties SumSnoc, SumAppend and SumOrderIrrelevant state |
| WaterFrame.SumSnoc | WaterEffect.cpp:220-258 | the summed offset of a list with one more emitter is the old sum plus that emitter's term |
| WaterFrame.SumAppend | WaterEffect.cpp:220-258 | the summed offset of two lists of emitters one after the other is the sum of their sums |
| WaterFrame.SumOrderIrrelevant | WaterEffect.cpp:220-258 | two lists holding the same emitters the same number of times (equal multisets), in whatever order, give the same summed offset |
| WaterFrame.NoEmittersNoOffset | WaterEffect.cpp:218-258 | with no waves and no fixed or click ripples, the offset is zero everywhere |
| WaterFrame.Expired | WaterEffect.cpp:245 | a ripple has expired once more than its life time has passed since its start; ClickRippleLifetime states it on a list |
| WaterFrame.Live | WaterEffect.cpp:241-249 | the ripples that survive expiry are no more than before |
| WaterFrame.LiveSound | WaterEffect.cpp:241-249 | every ripple that survives expiry was in the list and has not expired |
| WaterFrame.LiveSnoc | WaterEffect.cpp:241-249 | a ripple added at the end survives exactly when it has not expired |
| WaterFrame.LiveAppend | WaterEffect.cpp:241-249 | expiry distributes over concatenation: the survivors keep their relative order |
| WaterFrame.LiveKeepsSurvivors | WaterEffect.cpp:241-249 | every ripple of the list that has not expired survives |
| WaterFrame.LiveIdempotent | WaterEffect.cpp:216-249 | pruning again at the same time removes nothing more, so the vertices after the first see the list the first one left |
| WaterFrame.ClickRippleLifetime | WaterEffect.cpp:245 | a ripple survives at time t exactly when t <= startTime + lifeTime |
| WaterFrame.Displaced | WaterEffect.cpp:260-293 | column 0 never ends right of x = 0; column n (n > 0) never ends left of its rest x; indices up to n+1 never end below y = 0; indices from n+2 in row n or below never end above their rest y; an unclamped coordinate is rest plus offset; a clamped coordinate its bound already admits is rest plus offset too; every coordinate is rest plus offset, 0 or the rest value |
| WaterFrame.ShadeAlpha | WaterEffect.cpp:295-307 | a vertex that moved no more than the threshold gets the default alpha |
| WaterFrame.FrameAlpha | WaterEffect.cpp:309-310 | when minAlpha <= 1, the final alpha lies in [minAlpha, 1]; a shaded alpha within 0.01 of the previous alpha and inside [minAlpha, 1] is kept exactly; a shaded alpha farther above (below) moves the alpha exactly 0.01 up (down) from the previous alpha, then clamped to [minAlpha, 1]; when that band allows it, the alpha lies within 0.01 of the previous frame's alpha |
| WaterFrame.StillVertexKeepsDefaultAlpha | WaterEffect.cpp:295-310 | a vertex that did not move and already had the default alpha (inside [minAlpha, 1]) keeps the default alpha |
| WaterFrame.Movement | WaterEffect.cpp:295-298 | the distance a vertex moved since the last frame; a definition without a contract of its own, whose role ShadeAlpha and StillVertexKeepsDefaultAlpha state |
| WaterFrame.UpdatedVertex | WaterEffect.cpp:216-312 | an update changes only a vertex's position and alpha: the texture coordinate and r, g, b are kept, and when minAlpha <= 1 the alpha lies in [minAlpha, 1]; UpdatedPosition and UpdatedAlpha give the new position and alpha exactly |
| WaterFrame.TabulateAt | WaterEffect.cpp:216-313 | entry j of the table built vertex by vertex is the rule applied to the j-th inputs alone |
| WaterFrame.FrameVertices | WaterEffect.cpp:216-313 | the first k vertices of the new frame: exactly k entries, vertex j being the update of old vertex j (the latter stated by FrameVerticesAt and FrameVerticesStep) |
| WaterFrame.FrameVerticesStep | WaterEffect.cpp:216-313 | the frame up to k+1 is the frame up to k followed by the update of vertex k |
| WaterFrame.FrameVerticesAt | WaterEffect.cpp:216-313 | vertex j of a frame is the update of vertex j from its own current, rest and previous-frame values: vertices do not influence each other |
| WaterFrame.UpdatedVertexEdges | WaterEffect.cpp:263-293 | stated with the source's own tests: i % (n+1) == 0 keeps x <= 0; i % (n+1) == n keeps x >= rest x; i <= n+1 keeps y <= 0; i > n+1 and i >= (n+1)n keeps y >= rest y |
| WaterFrame.FirstVertexOfRowOnePinnedToTop | WaterEffect.cpp:280-286 | with no emitters, vertex n+1 is still pulled to y = 0 when its rest y is below 0, so it leaves its rest position |
| WaterFrame.NoEmittersInteriorAtRest | WaterEffect.cpp:260-293 | with no emitters, every vertex that no clamp applies to stays at its rest position |
| WaterFrame.DisplacedZeroOffset | WaterEffect.cpp:260-293 | with a zero offset, a rest position inside the clamps' bounds (x <= 0 in column 0, y <= 0 under the top-row test) is left where it is |
| WaterFrame.UpdatedAlpha | WaterEffect.cpp:295-310 | the updated vertex's alpha is FrameAlpha of its previous-frame vertex and its new position, i.e. shaded from how far it moved and slewed from its previous alpha |
| WaterFrame.UpdatedPosition | WaterEffect.cpp:260-293 | the updated vertex's position is its rest position moved by the total offset and clamped to the screen edges its row and column allow |
| WaterFrame.ZeroOffsetAtRest | WaterEffect.cpp:216-312 | a vertex whose total offset is zero and whose rest position lies inside its clamps' bounds keeps its rest position |
| WaterFrame.ZeroOffsetLatticeAtRest | WaterEffect.cpp:216-312 | at a time when the total offset is zero everywhere, every vertex of the lattice but n+1 keeps its rest position |
| WaterFrame.NoEmittersLatticeAtRest | WaterEffect.cpp:216-312 | with no emitters, every vertex of the lattice `initGrid` builds, except vertex n+1, keeps its rest position |
| Water.BuildVertices | WaterEffect.cpp:337-368 | the vertex loops produce exactly the lattice `GridVertices`: row-major, accumulated coordinates, last row and column pinned to the canvas edge |
| Water.BuildIndices | WaterEffect.cpp:370-385 | the index loops produce exactly `GridIndices`: two triangles per cell, cells in row-major order |
| Water.SumEmitters | WaterEffect.cpp:220-239 | the loop over the waves (or the fixed ripples) returns the sum of their terms at the rest position |
| Water.ExpiryStep | WaterEffect.cpp:241-249 | one pass of the erase-while-iterating loop: the iterator's ripple is the next unvisited one; erasing an expired one, or keeping and summing a live one, keeps the loop's invariant `ExpiryPass` one ripple further |
| Water.ExpireAndSumClickRipples | WaterEffect.cpp:241-258 | the erase-while-iterating loop leaves exactly the live ripples, in order, and returns the sum of their terms |
| Water.DefaultTemplateRippleExpires | WaterEffect.h:25-30 | a click ripple made from the default template (life time 0) is gone at every update after its start time, and only then |
| Water.ClampToEdges | WaterEffect.cpp:260-293 | the clamp statements compute `Displaced` |
| Water.FrameVertex | WaterEffect.cpp:218-312 | the loop body for vertex i returns the pruned list (`Live`) and the vertex `UpdatedVertex` computed with that list |
| Water.UpdateVertices | WaterEffect.cpp:216-313 | the vertex loop yields the frame `FrameVertices` with the pruned list; it prunes only when there is a vertex; the previous-frame buffer becomes the new frame followed by its untouched tail |
| Water.WaterEffect.constructor | WaterEffect.h:77-86 | a new effect has the default configuration and empty buffers |
| Water.WaterEffect.ClearParams | WaterEffect.cpp:97-101 | restores the default configuration and keeps the buffers |
| Water.WaterEffect.SetGridSize | WaterEffect.cpp:109-117 | a non-positive size leaves the configuration unchanged; a positive one replaces the grid size only |
| Water.WaterEffect.AddWave | WaterEffect.cpp:124-132 | appends the wave with normal (cos angle, -sin angle); nothing else changes |
| Water.WaterEffect.AddFixedRipple | WaterEffect.cpp:139-142 | appends the fixed ripple; nothing else changes |
| Water.WaterEffect.SetDefaultClickRippleParams | WaterEffect.cpp:149-152 | replaces the click template only |
| Water.WaterEffect.AddClickRipple | WaterEffect.cpp:159-166 | the click list becomes `AddClick` of the old list under the limit; nothing else changes |
| Water.WaterEffect.AddDefaultClickRipple | WaterEffect.cpp:175-182 | adds, under the same limit, the template re-centred at (x, y) and starting at startTime |
| Water.WaterEffect.SetLightParams | WaterEffect.cpp:189-192 | replaces the shading parameters only |
| Water.WaterEffect.SetMaxClickRipple | WaterEffect.cpp:199-202 | replaces the limit with any value, negative included; the list is not trimmed |
| Water.WaterEffect.ApplyPresetParams | WaterEffect.cpp:48-91 | the preset: grid 30, limit 5, no click ripples, the one fixed ripple, the two waves with their cached normals, the light setting and a template living 5 seconds |
| Water.WaterEffect.InitGrid | WaterEffect.cpp:324-386 | displaced and rest buffers become the lattice; the index buffer becomes its triangles; the new vertices are appended to the previous-frame buffer; every index names a vertex |
| Water.WaterEffect.Update | WaterEffect.cpp:214-314 | the displaced buffer becomes the frame at t; the previous-frame buffer's prefix becomes that frame; expired click ripples are erased when there is a vertex; the store is otherwise unchanged and the invariant is kept |

## Left out

- Rendering through SDL is not modelled: `setupEffectCanvas` (`WaterEffect.cpp:21-30`), the SDL calls of `renderEffect` (`WaterEffect.cpp:37-42`), and creating and destroying the canvas texture in `initGrid`. The constructor's window and renderer are not modelled either. `renderEffect`'s own work is the frame update, which `Update` models.
- Single-precision float arithmetic is modelled as exact reals. Rounding in the coordinate accumulation of `initGrid` is not modelled; `StepsIsProduct` states the exact-arithmetic value. Infinities and NaN are not modelled: a division by zero (decay 0, or a click ripple one second before its start) gives the unspecified value `MathLib.divByZero`.
- sin, cos, atan2, exp and sqrt are not modelled. They are uninterpreted fields of `MathLib`, so every property holds for any such functions. `Hypot` stands for the source's sqrt(dx·dx + dy·dy).
- The float `abs` at `WaterEffect.cpp:254` is taken to be the floating-point overload.
- The emitter formulas reach the frame functions through a `Waveforms` record. The class fixes it to `SourceWaveforms(ml)` in its constructor. The frame lemmas hold for any such record.
- 32-bit `int` overflow is not modelled. The index arithmetic of `initGrid` ((y+1)(gridSize+1) + x + 1 for the last cell) overflows once gridSize reaches 46340. `(gridSize + 1) * gridSize` in `_update` overflows once gridSize exceeds 46340.
- `size_t` is taken to be 64 bits wide.
- The `SDL_assert` in `setGridSize` is not modelled: the model follows release builds, where a non-positive size is ignored.
- `WaterEffect.h:130` declares `initGrid(int gridSize, int width, int height)`, while `WaterEffect.cpp:324` defines `initGrid(int width, int height)`. The model follows the definition.
- `WaterEffect.cpp:302` reads the shading angle as `Angle`, while the header (`WaterEffect.h:69`) names it `angle`. The model reads the one shading angle.
- Water.ExpireAndSumClickRipples: works on its own copy of the click list, and the frame stores the result. The in-place `std::list::erase` and its iterators are not modelled.
- Water.UpdateVertices: runs the vertex loop on local sequences that `Update` then stores. States of the member buffers in the middle of a frame are not observable in the model.
- `TestSDLWater.cpp` (the demo program: window, event loop, image loading, clicks) is not part of this model.

=== FILE: water_effect.dfy ===
/**
 * The water effect object: its parameter store, its mesh buffers, the setters
 * that edit the store, the grid builder and the per-frame update.
 */
module Water {
  import opened WaterParams
  import opened WaterMath
  import opened WaterStore
  import opened WaterGrid
  import opened WaterFrame

  /** M_PI */
  const Pi: real := 3.14159265358979323846

  /**
   * The vertex loops of `initGrid`: rows top to bottom, columns left to right,
   * coordinates accumulated one cell at a time, the last row and column
   * pinned to the canvas edge.
   */
  method BuildVertices(n: nat, w: real, h: real, alpha: real) returns (vertices: seq<Vertex>)
    requires n > 0
    ensures vertices == GridVertices(n, w, h, alpha)
  {
    vertices := [];
    var cellW := w / n as real;
    var cellH := h / n as real;
    var step := 1.0 / n as real;
    var rowY := 0.0;
    var coordY := 0.0;
    var y := 0;
    while y <= n
      invariant 0 <= y <= n + 1
      invariant vertices == Rows(n, w, h, alpha, y)
      invariant y <= n ==> rowY == Steps(y, cellH) && coordY == Steps(y, step)
    {
      if y == n {
        rowY := h;
        coordY := 1.0;
      }
      var columnX := 0.0;
      var coordX := 0.0;
      var x := 0;
      while x <= n
        invariant 0 <= x <= n + 1
        invariant vertices == Rows(n, w, h, alpha, y) + RowPrefix(n, w, h, alpha, y, x)
        invariant x <= n ==> columnX == Steps(x, cellW) && coordX == Steps(x, step)
        invariant rowY == if y == n then h else Steps(y, cellH)
        invariant coordY == if y == n then 1.0 else Steps(y, step)
      {
        if x == n {
          columnX := w;
          coordX := 1.0;
        }
        var v := Vertex(Point(columnX, rowY), Color(1.0, 1.0, 1.0, alpha), Point(coordX, coordY));
        assert v == GridVertex(n, w, h, alpha, y, x);
        vertices := vertices + [v];
        columnX := columnX + cellW;
        coordX := coordX + step;
        x := x + 1;
      }
      rowY := rowY + cellH;
      coordY := coordY + step;
      y := y + 1;
    }
  }

  /** The index loops of `initGrid`: two triangles per cell, cells in row-major order. */
  method BuildIndices(n: nat) returns (indices: seq<int>)
    ensures indices == GridIndices(n)
  {
    indices := [];
    var y := 0;
    while y < n
      invariant 0 <= y <= n
      invariant indices == CellRows(n, y)
    {
      var x := 0;
      while x < n
        invariant 0 <= x <= n
        invariant indices == CellRows(n, y) + CellRowPrefix(n, y, x)
      {
        var topLeft := y * (n + 1) + x;
        var topRight := topLeft + 1;
        var bottomLeft := (y + 1) * (n + 1) + x;
        var bottomRight := bottomLeft + 1;
        ghost var before := indices;
        assert CellIndices(n, y, x) == [topLeft, topRight, bottomLeft, topRight, bottomRight, bottomLeft];

        indices := indices + [topLeft];
        indices := indices + [topRight];
        indices := indices + [bottomLeft];

        indices := indices + [topRight];
        indices := indices + [bottomRight];
        indices := indices + [bottomLeft];

        assert indices == before + CellIndices(n, y, x);
        x := x + 1;
      }
      y := y + 1;
    }
  }

  /**
   * The summed offset of `emitters` at rest position `rest` and time `t`: the
   * loop over the planar waves, and the loop over the fixed ripples.
   */
  method SumEmitters<T>(term: (T, Point, real) -> Point, emitters: seq<T>, rest: Point, t: real) returns (offset: Point)
    ensures offset == Sum(term, emitters, rest, t)
  {
    offset := Origin;
    var k := 0;
    while k < |emitters|
      invariant 0 <= k <= |emitters|
      invariant offset == Sum(term, emitters[..k], rest, t)
    {
      assert emitters[..k + 1][..k] == emitters[..k];
      offset := Add(offset, term(emitters[k], rest, t));
      k := k + 1;
    }
    assert emitters[..k] == emitters;
  }

  /**
   * One pass over the click-ripple list at time `t`: every ripple that has
   * expired is erased, and the offsets of the others at rest position `rest`
   * are summed. Returns the list that remains and the summed offset.
   */
  method ExpireAndSumClickRipples(click: (ClickRippleParams, Point, real) -> Point, ripples: seq<ClickRippleParams>, rest: Point, t: real)
      returns (clicks: seq<ClickRippleParams>, offset: Point)
    ensures clicks == Live(ripples, t)
    ensures offset == Sum(click, clicks, rest, t)
  {
    clicks := ripples;
    ghost var k := 0;
    ghost var kept: seq<ClickRippleParams> := [];
    offset := Origin;
    var j := 0;
    assert ripples[0..] == ripples;
    while j < |clicks|
      invariant ExpiryPass(click, ripples, rest, t, k, kept, clicks, j, offset)
      decreases |ripples| - k
    {
      var c := clicks[j];
      ExpiryStep(click, ripples, rest, t, k, kept, clicks, j, offset);
      if t - c.startTime > c.lifeTime {
        clicks := clicks[..j] + clicks[j + 1..];
      } else {
        offset := Add(offset, click(c, rest, t));
        kept := kept + [c];
        j := j + 1;
      }
      k := k + 1;
    }
    assert ripples[..k] == ripples;
  }

  /**
   * The state of the erase-while-iterating loop after `k` ripples: the
   * iterator stands at `j`, the `kept` ripples before it are the survivors of
   * the first `k`, the rest of the list is still untouched, and `offset` sums
   * the survivors' terms.
   */
  ghost predicate ExpiryPass(click: (ClickRippleParams, Point, real) -> Point, ripples: seq<ClickRippleParams>, rest: Point, t: real,
                             k: nat, kept: seq<ClickRippleParams>, clicks: seq<ClickRippleParams>, j: nat, offset: Point)
  {
    && k <= |ripples|
    && kept == Live(ripples[..k], t) && j == |kept|
    && clicks == kept + ripples[k..]
    && offset == Sum(click, kept, rest, t)
  }

  /**
   * One step of the loop: the ripple under the iterator is `ripples[k]`; if
   * it has expired, erasing it keeps the survivors and leaves the untouched
   * tail behind them; otherwise it joins the survivors and its term the sum.
   */
  lemma ExpiryStep(click: (ClickRippleParams, Point, real) -> Point, ripples: seq<ClickRippleParams>, rest: Point, t: real,
                   k: nat, kept: seq<ClickRippleParams>, clicks: seq<ClickRippleParams>, j: nat, offset: Point)
    requires ExpiryPass(click, ripples, rest, t, k, kept, clicks, j, offset) && j < |clicks|
    ensures k < |ripples| && clicks[j] == ripples[k]
    ensures Expired(clicks[j], t) ==>
      ExpiryPass(click, ripples, rest, t, k + 1, kept, clicks[..j] + clicks[j + 1..], j, offset)
    ensures !Expired(clicks[j], t) ==>
      ExpiryPass(click, ripples, rest, t, k + 1, kept + [clicks[j]], clicks, j + 1, Add(offset, click(clicks[j], rest, t)))
  {
    var c := ripples[k];
    SplitAt(ripples, k);
    LiveSnoc(ripples[..k], c, t);
    EraseAt(kept, c, ripples[k + 1..]);
    MoveAcross(kept, c, ripples[k + 1..]);
    SumSnoc(click, kept, c, rest, t);
  }

  /**
   * The work of one frame on vertex `i` (current value `cur`, rest value
   * `rest`, value `last` from the previous frame): sum the offsets of the
   * waves, the fixed ripples and the click ripples (erasing the expired
   * ones), apply the edge clamps, then set the alpha from the movement since
   * the last frame, limited to AlphaSlew per frame and to [minAlpha, 1].
   * Returns the click-ripple list that remains and the new vertex.
   */
  method FrameVertex(ml: MathLib, wf: Waveforms, p: EffectParams, i: nat, t: real, cur: Vertex, rest: Vertex, last: Vertex)
      returns (clicks: seq<ClickRippleParams>, v: Vertex)
    requires p.gridSize > 0
    ensures clicks == Live(p.clickRipples, t)
    ensures v == UpdatedVertex(ml, wf, p.(clickRipples := clicks), i, t, cur, rest, last)
  {
    var origin := rest.position;
    var waveOffset := SumEmitters(wf.wave, p.waves, origin, t);
    var fixedOffset := SumEmitters(wf.fixed, p.fixedRipples, origin, t);
    var clickOffset;
    clicks, clickOffset := ExpireAndSumClickRipples(wf.click, p.clickRipples, origin, t);
    var offset := Add(Add(waveOffset, fixedOffset), clickOffset);

    var position := ClampToEdges(p.gridSize as int, i, origin, offset);

    var alpha := ShadeAlpha(ml, p.light, last.position, position);
    alpha := Clamp(alpha, last.color.a - AlphaSlew, last.color.a + AlphaSlew);
    alpha := Clamp(alpha, p.light.minAlpha, 1.0);

    v := Vertex(position, cur.color.(a := alpha), cur.texCoord);
  }

  /**
   * The displaced position of vertex `i` of a grid of size `n`: rest position
   * plus offset, then the edge clamps chosen by the vertex's index.
   */
  method ClampToEdges(n: nat, i: nat, rest: Point, offset: Point) returns (p: Point)
    requires n > 0
    ensures p == Displaced(n, i, rest, offset)
  {
    ColumnRowArithmetic(n, i);
    var y := rest.y + offset.y;
    var x := rest.x + offset.x;

    if i % (n + 1) == 0 {
      if x > 0.0 {
        x := 0.0;
      }
    } else if i % (n + 1) == n {
      if x < rest.x {
        x := rest.x;
      }
    }
    if i <= n + 1 {
      if y > 0.0 {
        y := 0.0;
      }
    } else if i >= (n + 1) * n {
      if y < rest.y {
        y := rest.y;
      }
    }
    p := Point(x, y);
  }

  /**
   * The vertex loop of one frame: vertex `i` of `cur` and of `last` is
   * replaced by its new state, in order, and the click-ripple list is pruned
   * by the first vertex. The result is the frame of `FrameVertices`, computed
   * with the pruned list throughout, since pruning a second time removes
   * nothing more.
   */
  method UpdateVertices(ml: MathLib, wf: Waveforms, p: EffectParams, t: real, cur: seq<Vertex>, rest: seq<Vertex>, last: seq<Vertex>)
      returns (clicks: seq<ClickRippleParams>, current: seq<Vertex>, lastFrame: seq<Vertex>)
    requires p.gridSize > 0 && |cur| == |rest| <= |last|
    ensures clicks == if |cur| == 0 then p.clickRipples else Live(p.clickRipples, t)
    ensures current == FrameVertices(ml, wf, p.(clickRipples := clicks), t, cur, rest, last, |cur|)
    ensures lastFrame == current + last[|cur|..]
  {
    ghost var q := p.(clickRipples := Live(p.clickRipples, t));
    clicks, current, lastFrame := p.clickRipples, cur, last;
    var i := 0;
    while i < |cur|
      invariant i <= |cur| == |current| && |lastFrame| == |last|
      invariant clicks == if i == 0 then p.clickRipples else Live(p.clickRipples, t)
      invariant current == FrameVertices(ml, wf, q, t, cur, rest, last, i) + cur[i..]
      invariant lastFrame == FrameVertices(ml, wf, q, t, cur, rest, last, i) + last[i..]
    {
      NextUnchanged(FrameVertices(ml, wf, q, t, cur, rest, last, i), cur, i);
      NextUnchanged(FrameVertices(ml, wf, q, t, cur, rest, last, i), last, i);
      var pruned, v := FrameVertex(ml, wf, p.(clickRipples := clicks), i, t, current[i], rest[i], lastFrame[i]);
      if i > 0 {
        LiveIdempotent(p.clickRipples, t);
      }
      assert p.(clickRipples := clicks).(clickRipples := pruned) == q;
      clicks := pruned;
      AdvanceFrame(ml, wf, q, t, cur, rest, last, cur, i, v);
      AdvanceFrame(ml, wf, q, t, cur, rest, last, last, i, v);
      current := current[i := v];
      lastFrame := lastFrame[i := v];
      i := i + 1;
    }
    assert cur[i..] == [];
  }

  /** The element that follows a prefix of `s` is `s[i]`. */
  lemma NextUnchanged<T>(prefix: seq<T>, s: seq<T>, i: nat)
    requires i < |s|
    ensures (prefix + s[i..])[|prefix|] == s[i]
  {
  }

  /**
   * Storing the update of vertex `i` over the `i`-th element of a frame that
   * is done up to `i` makes it done up to `i + 1`.
   */
  lemma AdvanceFrame(ml: MathLib, wf: Waveforms, p: EffectParams, t: real, cur: seq<Vertex>, rest: seq<Vertex>, last: seq<Vertex>, s: seq<Vertex>, i: nat, v: Vertex)
    requires p.gridSize > 0 && i < |cur| && i < |rest| && i < |last| && i < |s|
    requires v == UpdatedVertex(ml, wf, p, i, t, cur[i], rest[i], last[i])
    ensures (FrameVertices(ml, wf, p, t, cur, rest, last, i) + s[i..])[i := v] == FrameVertices(ml, wf, p, t, cur, rest, last, i + 1) + s[i + 1..]
  {
    ReplaceNext(FrameVertices(ml, wf, p, t, cur, rest, last, i), s, i, v);
    FrameVerticesStep(ml, wf, p, t, cur, rest, last, i, v);
  }

  /** Overwriting the element that follows a prefix of `s`. */
  lemma ReplaceNext<T>(prefix: seq<T>, s: seq<T>, i: nat, v: T)
    requires i < |s|
    ensures (prefix + s[i..])[|prefix| := v] == (prefix + [v]) + s[i + 1..]
  {
    assert s[i..] == [s[i]] + s[i + 1..];
  }

  /** Splitting a sequence at one of its elements. */
  lemma SplitAt<T>(s: seq<T>, k: nat)
    requires k < |s|
    ensures s[k..] == [s[k]] + s[k + 1..]
    ensures s[..k + 1] == s[..k] + [s[k]]
  {
  }

  /** The element that follows a prefix can join it. */
  lemma MoveAcross<T>(prefix: seq<T>, c: T, rest: seq<T>)
    ensures prefix + ([c] + rest) == (prefix + [c]) + rest
  {
  }

  /** Erasing the element that follows a prefix leaves the prefix and the rest. */
  lemma EraseAt<T>(prefix: seq<T>, c: T, rest: seq<T>)
    ensures var s := prefix + ([c] + rest); s[..|prefix|] + s[|prefix| + 1..] == prefix + rest
  {
    var s := prefix + ([c] + rest);
    assert s[..|prefix|] == prefix;
    assert s[|prefix| + 1..] == rest;
  }

  /**
   * A click ripple made from the default template lives for no time at all:
   * the first update after its start time removes it.
   */
  lemma DefaultTemplateRippleExpires(x: real, y: real, startTime: real, t: real)
    ensures var c := FromTemplate(DefaultClickRipple, x, y, startTime);
      Live([c], t) == [] <==> t > startTime
  {
    var c := FromTemplate(DefaultClickRipple, x, y, startTime);
    ClickRippleLifetime(c, t);
    LiveSnoc([], c, t);
    assert [] + [c] == [c];
  }

  class WaterEffect {
    /** The math library the waveforms and the shading are evaluated with. */
    const ml: MathLib

    /** The emitter offsets: the effect's own formulas over `ml`. */
    const waveforms: Waveforms

    /** The effect's configuration. */
    var params: EffectParams

    /** Displaced vertices (drawn), rest vertices, and the vertices of the previous frame. */
    var vertices: seq<Vertex>
    var verticesOrigin: seq<Vertex>
    var verticesLast: seq<Vertex>

    /** Three indices into `vertices` per triangle. */
    var indices: seq<int>

    /**
     * The grid size is positive, every wave's cached normal matches its angle,
     * the displaced and rest buffers are index-aligned and no shorter than the
     * previous-frame buffer allows, and every index names a vertex.
     */
    ghost predicate Valid()
      reads this
    {
      && params.gridSize > 0
      && (forall w :: w in params.waves ==> Calculated(ml, w))
      && |vertices| == |verticesOrigin| <= |verticesLast|
      && IndicesBelow(indices, |vertices|)
      && waveforms == SourceWaveforms(ml)
    }

    /** A new effect has the default configuration and empty buffers. */
    constructor (ml: MathLib)
      ensures Valid()
      ensures this.ml == ml && waveforms == SourceWaveforms(ml) && params == DefaultEffectParams
      ensures vertices == [] && verticesOrigin == [] && verticesLast == [] && indices == []
    {
      this.ml := ml;
      waveforms := SourceWaveforms(ml);
      params := DefaultEffectParams;
      vertices, verticesOrigin, verticesLast, indices := [], [], [], [];
    }

    // ------------------------------------------------------ parameter store

    /** Restores the default configuration; the mesh buffers are kept. */
    method ClearParams()
      requires Valid()
      modifies this`params
      ensures Valid()
      ensures params == DefaultEffectParams
    {
      params := DefaultEffectParams;
    }

    /**
     * Sets the grid size for the next `InitGrid`; a non-positive size is
     * ignored. The mesh is not rebuilt.
     */
    method SetGridSize(gridSize: int32)
      requires Valid()
      modifies this`params
      ensures Valid()
      ensures gridSize <= 0 ==> params == old(params)
      ensures gridSize > 0 ==> params == old(params).(gridSize := gridSize)
    {
      if gridSize <= 0 {
        return;
      }
      params := params.(gridSize := gridSize);
    }

    /** Appends planar wave `p` with its normal (cos angle, -sin angle) cached. */
    method AddWave(p: WaveParams)
      requires Valid()
      modifies this`params
      ensures Valid()
      ensures params == old(params).(waves := old(params.waves) + [CalculateWave(ml, p)])
      ensures var w := params.waves[|params.waves| - 1];
        w.basicParams == p && w.A == Cos(ml, p.angle) && w.B == -Sin(ml, p.angle)
    {
      var cParams := WaveCalculatedParams(Cos(ml, p.angle), -Sin(ml, p.angle), p);
      params := params.(waves := params.waves + [cParams]);
    }

    /** Appends fixed ripple `p`. */
    method AddFixedRipple(p: RippleParams)
      requires Valid()
      modifies this`params
      ensures Valid()
      ensures params == old(params).(fixedRipples := old(params.fixedRipples) + [p])
    {
      params := params.(fixedRipples := params.fixedRipples + [p]);
    }

    /** Replaces the template `AddDefaultClickRipple` builds from. */
    method SetDefaultClickRippleParams(p: ClickRippleParams)
      requires Valid()
      modifies this`params
      ensures Valid()
      ensures params == old(params).(defaultClickRipple := p)
    {
      params := params.(defaultClickRipple := p);
    }

    /** Appends click ripple `p` if the list is below its limit; otherwise does nothing. */
    method AddClickRipple(p: ClickRippleParams)
      requires Valid()
      modifies this`params
      ensures Valid()
      ensures params == old(params).(clickRipples := AddClick(old(params.clickRipples), params.maxClickRipple, p))
    {
      if |params.clickRipples| >= AsSizeT(params.maxClickRipple) {
        return;
      }
      params := params.(clickRipples := params.clickRipples + [p]);
    }

    /** Adds, under the same limit, a copy of the template centred at (x, y) starting at `startTime`. */
    method AddDefaultClickRipple(x: real, y: real, startTime: real)
      requires Valid()
      modifies this`params
      ensures Valid()
      ensures params == old(params).(clickRipples :=
        AddClick(old(params.clickRipples), params.maxClickRipple, FromTemplate(params.defaultClickRipple, x, y, startTime)))
    {
      var p := params.defaultClickRipple;
      p := p.(startTime := startTime);
      p := p.(rippleParams := p.rippleParams.(pos := Point(x, y)));
      AddClickRipple(p);
    }

    /** Replaces the shading parameters. */
    method SetLightParams(p: LightParams)
      requires Valid()
      modifies this`params
      ensures Valid()
      ensures params == old(params).(light := p)
    {
      params := params.(light := p);
    }

    /** Replaces the click-ripple limit; any value is accepted. */
    method SetMaxClickRipple(count: int32)
      requires Valid()
      modifies this`params
      ensures Valid()
      ensures params == old(params).(maxClickRipple := count)
    {
      params := params.(maxClickRipple := count);
    }

    /**
     * The preset configuration: one fixed ripple, two planar waves, a light
     * setting, a click template living 5 seconds, at most 5 click ripples
     * and grid size 30.
     */
    method ApplyPresetParams()
      requires Valid()
      modifies this`params
      ensures Valid()
      ensures params.gridSize == 30 && params.maxClickRipple == 5 && params.clickRipples == []
      ensures params.fixedRipples == [RippleParams(35.0, 3.0, 0.015, Point(-100.0, 600.0))]
      ensures |params.waves| == 2
      ensures params.waves[0] == CalculateWave(ml, WaveParams(10.0, 8.0, 0.02, 5.0 * Pi / 6.0, 1.0))
      ensures params.waves[1] == CalculateWave(ml, WaveParams(15.0, 3.0, 0.01, 7.0 * Pi / 6.0, 0.0))
      ensures params.light == LightParams(0.0, 0.9, 0.85, 3.0, 5.0 * Pi / 4.0)
      ensures params.defaultClickRipple == ClickRippleParams(RippleParams(60.0, 10.0, 0.01, Point(0.0, 0.0)), 0.0, 5.0)
    {
      ClearParams();
      SetMaxClickRipple(5);

      var fixedRipple := DefaultRipple;
      fixedRipple := fixedRipple.(amplitude := 35.0, density := 0.015, frequency := 3.0, pos := Point(-100.0, 600.0));
      AddFixedRipple(fixedRipple);

      var wave := DefaultWave;
      wave := wave.(amplitude := 10.0, angle := 5.0 * Pi / 6.0, density := 0.02, frequency := 8.0, phi := 1.0);
      AddWave(wave);
      wave := wave.(amplitude := 15.0, angle := 7.0 * Pi / 6.0, density := 0.01, frequency := 3.0, phi := 0.0);
      AddWave(wave);

      var light := DefaultLight;
      light := light.(decay := 3.0, defaultAlpha := 0.9, angle := 5.0 * Pi / 4.0, minAlpha := 0.85, minDistance := 0.0);
      SetLightParams(light);

      var clickRipple := DefaultClickRipple;
      clickRipple := clickRipple.(lifeTime := 5.0);
      clickRipple := clickRipple.(rippleParams := clickRipple.rippleParams.(amplitude := 60.0, density := 0.01, frequency := 10.0));
      SetDefaultClickRippleParams(clickRipple);

      SetGridSize(30);
    }

    // ---------------------------------------------------------- grid builder

    /**
     * Rebuilds the mesh for the current grid size over a `width` x `height`
     * canvas. The displaced and rest buffers are replaced by the new lattice,
     * the index buffer by its triangles; the previous-frame buffer is not
     * cleared, so the new vertices are appended to it.
     */
    method InitGrid(width: int32, height: int32)
      requires Valid()
      modifies this`vertices, this`verticesOrigin, this`verticesLast, this`indices
      ensures Valid()
      ensures vertices == GridVertices(params.gridSize as int, width as real, height as real, params.light.defaultAlpha)
      ensures verticesOrigin == vertices
      ensures verticesLast == old(verticesLast) + vertices
      ensures indices == GridIndices(params.gridSize as int)
    {
      var gridSize := params.gridSize as int;
      var w, h := width as real, height as real;
      var alpha := params.light.defaultAlpha;
      var newVertices := BuildVertices(gridSize, w, h, alpha);
      var newIndices := BuildIndices(gridSize);
      vertices, verticesOrigin, verticesLast, indices := newVertices, newVertices, verticesLast + newVertices, newIndices;
      GridVertexAt(gridSize, w, h, alpha, 0, 0);
      GridIndicesInRange(gridSize);
    }

    // ------------------------------------------------------ per-frame update

    /**
     * One frame at time `t` (the update `renderEffect` runs before drawing).
     * Every vertex is moved to its rest position plus the summed offsets, its
     * edge clamps applied, its alpha derived from its movement since the last
     * frame, and it is copied into the previous-frame buffer. The first vertex
     * erases the expired click ripples, so with no vertices none is erased.
     */
    method Update(t: real)
      requires Valid()
      modifies this`params, this`vertices, this`verticesLast
      ensures Valid()
      ensures params == old(params).(clickRipples :=
        if |vertices| == 0 then old(params.clickRipples) else Live(old(params.clickRipples), t))
      ensures vertices == FrameVertices(ml, waveforms, params, t, old(vertices), verticesOrigin, old(verticesLast), |old(vertices)|)
      ensures verticesLast == vertices + old(verticesLast)[|vertices|..]
    {
      var clicks, current, last := UpdateVertices(ml, waveforms, params, t, vertices, verticesOrigin, verticesLast);
      params := params.(clickRipples := clicks);
      vertices, verticesLast := current, last;
    }
  }
}

=== FILE: water_frame.dfy ===
/**
 * What one frame of the update computes for each vertex: the summed offsets of
 * the planar waves, the fixed ripples and the live click ripples, the clamps
 * that keep the mesh edges on the canvas, and the velocity-driven alpha.
 * The transcendental functions stay uninterpreted (`MathLib`).
 */
module WaterFrame {
  import opened WaterParams
  import opened WaterMath
  import opened WaterGrid

  // ------------------------------------------------------------ waveforms

  /** Offset of planar wave `w` at rest position `pos` and time `t`: along its normal (A, B). */
  function WaveTerm(ml: MathLib, w: WaveCalculatedParams, pos: Point, t: real): (r: Point)
    ensures r.x * w.B == r.y * w.A
  {
    var lineOffset := LineOffset(ml, w, pos, t);
    Point(lineOffset * w.A, lineOffset * w.B)
  }

  /** Signed strength of planar wave `w` at `pos`: a sine of time and of distance to its front line. */
  function LineOffset(ml: MathLib, w: WaveCalculatedParams, pos: Point, t: real): (r: real)
    ensures w.basicParams.amplitude == 0.0 ==> r == 0.0
    ensures w.basicParams.density == 0.0 ==> r == w.basicParams.amplitude * Sin(ml, w.basicParams.frequency * t)
  {
    w.basicParams.amplitude * Sin(ml, WavePhase(w, pos, t))
  }

  /** The phase of wave `w` at `pos`: a wave of zero density has the same phase everywhere. */
  function WavePhase(w: WaveCalculatedParams, pos: Point, t: real): (r: real)
    ensures w.basicParams.density == 0.0 ==> r == w.basicParams.frequency * t
  {
    var p := w.basicParams;
    var distanceToLine := w.A * pos.x + w.B * pos.y + p.phi;
    p.frequency * t - p.density * distanceToLine
  }

  /** Offset of fixed ripple `f` at `pos`: radial, with a cosine profile in distance and time. */
  function FixedTerm(ml: MathLib, f: RippleParams, pos: Point, t: real): (r: Point)
    ensures var angle := Atan2(ml, -(pos.y - f.pos.y), pos.x - f.pos.x);
      r.x * -Sin(ml, angle) == r.y * Cos(ml, angle)
    ensures f.amplitude == 0.0 ==> r == Origin
  {
    var dx := pos.x - f.pos.x;
    var dy := pos.y - f.pos.y;
    var angle := Atan2(ml, -dy, dx);
    var distance := Hypot(ml, dx, dy);
    var strength := f.amplitude * Cos(ml, f.frequency * t - f.density * distance);
    Point(strength * Cos(ml, angle), strength * -Sin(ml, angle))
  }

  /** Offset of live click ripple `c` at `pos`: radial, damped in phase and in elapsed time. */
  function ClickTerm(ml: MathLib, c: ClickRippleParams, pos: Point, t: real): (o: Point)
    ensures var angle := Atan2(ml, pos.y - c.rippleParams.pos.y, pos.x - c.rippleParams.pos.x);
      t - c.startTime + 1.0 != 0.0 ==> o.x * Sin(ml, angle) == o.y * Cos(ml, angle)
    ensures t - c.startTime + 1.0 != 0.0 && c.rippleParams.amplitude == 0.0 ==> o == Origin
  {
    var r := c.rippleParams;
    var dx := pos.x - r.pos.x;
    var dy := pos.y - r.pos.y;
    var angle := Atan2(ml, dy, dx);
    var distance := Hypot(ml, dx, dy);
    var distanceToRipple := Abs((t - c.startTime) * r.frequency - distance * r.density);
    var elapsed := t - c.startTime + 1.0;
    Point(Quot(ml, r.amplitude * Cos(ml, distanceToRipple) * Cos(ml, angle) * Exp(ml, -distanceToRipple), elapsed),
          Quot(ml, r.amplitude * Cos(ml, distanceToRipple) * Sin(ml, angle) * Exp(ml, -distanceToRipple), elapsed))
  }

  /**
   * The offset each kind of emitter adds at a rest position and a time. The
   * frame is stated for any such triple of functions; `SourceWaveforms` is the
   * triple the effect evaluates.
   */
  datatype Waveforms = Waveforms(
    wave: (WaveCalculatedParams, Point, real) -> Point,
    fixed: (RippleParams, Point, real) -> Point,
    click: (ClickRippleParams, Point, real) -> Point)

  /** The effect's own formulas: `WaveTerm`, `FixedTerm` and `ClickTerm`. */
  function SourceWaveforms(ml: MathLib): Waveforms
  {
    Waveforms(
      (w, pos, t) => WaveTerm(ml, w, pos, t),
      (f, pos, t) => FixedTerm(ml, f, pos, t),
      (c, pos, t) => ClickTerm(ml, c, pos, t))
  }

  /** Sum of the offsets of the emitters `xs` at `pos` and `t`, accumulated front to back. */
  function Sum<T>(term: (T, Point, real) -> Point, xs: seq<T>, pos: Point, t: real): Point
    decreases |xs|
  {
    if xs == [] then Origin else Add(Sum(term, xs[..|xs| - 1], pos, t), term(xs[|xs| - 1], pos, t))
  }

  lemma SumSnoc<T>(term: (T, Point, real) -> Point, xs: seq<T>, x: T, pos: Point, t: real)
    ensures Sum(term, xs + [x], pos, t) == Add(Sum(term, xs, pos, t), term(x, pos, t))
  {
    assert (xs + [x])[..|xs|] == xs;
  }

  /** The total offset of the vertex at rest position `pos`, over the emitters in `p`. */
  function Offset(wf: Waveforms, p: EffectParams, pos: Point, t: real): Point
  {
    Add(Add(Sum(wf.wave, p.waves, pos, t), Sum(wf.fixed, p.fixedRipples, pos, t)), Sum(wf.click, p.clickRipples, pos, t))
  }

  /** Summing two lists of emitters one after the other adds their sums. */
  lemma {:induction false} SumAppend<T>(term: (T, Point, real) -> Point, a: seq<T>, b: seq<T>, pos: Point, t: real)
    ensures Sum(term, a + b, pos, t) == Add(Sum(term, a, pos, t), Sum(term, b, pos, t))
    decreases |b|
  {
    if b == [] {
      assert a + b == a;
    } else {
      var b' := b[..|b| - 1];
      assert (a + b)[..|a + b| - 1] == a + b';
      SumAppend(term, a, b', pos, t);
    }
  }

  lemma MultisetCancel<T>(m: multiset<T>, m': multiset<T>, x: T)
    requires m + multiset{x} == m' + multiset{x}
    ensures m == m'
  {
    assert forall y :: m[y] == (m + multiset{x})[y] - (if y == x then 1 else 0);
  }

  lemma AddSwap(p: Point, q: Point, r: Point)
    ensures Add(Add(p, q), r) == Add(Add(p, r), q)
  {
  }

  /**
   * The order in which emitters were added does not change their summed
   * offset: two lists holding the same emitters, each as often, sum alike.
   */
  lemma {:induction false} SumOrderIrrelevant<T>(term: (T, Point, real) -> Point, a: seq<T>, b: seq<T>, pos: Point, t: real)
    requires multiset(a) == multiset(b)
    ensures Sum(term, a, pos, t) == Sum(term, b, pos, t)
    decreases |a|
  {
    if a == [] {
      assert |b| == |multiset(b)| == 0;
    } else {
      var a', x := a[..|a| - 1], a[|a| - 1];
      assert a == a' + [x];
      assert x in multiset(b);
      var k :| 0 <= k < |b| && b[k] == x;
      var b1, b2 := b[..k], b[k + 1..];
      assert b == b1 + [x] + b2;
      assert multiset(b) == multiset(b1 + b2) + multiset{x};
      MultisetCancel(multiset(a'), multiset(b1 + b2), x);
      var tx := term(x, pos, t);
      calc {
        Sum(term, b, pos, t);
      == { SumAppend(term, b1 + [x], b2, pos, t); }
        Add(Sum(term, b1 + [x], pos, t), Sum(term, b2, pos, t));
      == { SumSnoc(term, b1, x, pos, t); }
        Add(Add(Sum(term, b1, pos, t), tx), Sum(term, b2, pos, t));
      == { AddSwap(Sum(term, b1, pos, t), tx, Sum(term, b2, pos, t)); }
        Add(Add(Sum(term, b1, pos, t), Sum(term, b2, pos, t)), tx);
      == { SumAppend(term, b1, b2, pos, t); }
        Add(Sum(term, b1 + b2, pos, t), tx);
      == { SumOrderIrrelevant(term, a', b1 + b2, pos, t); }
        Add(Sum(term, a', pos, t), tx);
      == { SumSnoc(term, a', x, pos, t); }
        Sum(term, a, pos, t);
      }
    }
  }

  /**
   * A wave of zero density whose angle is 0 moves every vertex alike, along x
   * only, by amplitude * sin(frequency * t), given cos 0 = 1 and sin 0 = 0.
   */
  lemma ZeroDensityWaveIsUniform(ml: MathLib, w: WaveCalculatedParams, pos: Point, t: real)
    requires w.basicParams.density == 0.0 && w.A == 1.0 && w.B == 0.0
    ensures Sum(SourceWaveforms(ml).wave, [w], pos, t)
      == Point(w.basicParams.amplitude * Sin(ml, w.basicParams.frequency * t), 0.0)
  {
    assert [w][..0] == [];
    assert WavePhase(w, pos, t) == w.basicParams.frequency * t;
  }

  /**
   * A fixed ripple of frequency 0 and density 0 does not oscillate: it pushes
   * every vertex by its amplitude along (cos angle, -sin angle), away from
   * its centre, given cos 0 = 1.
   */
  lemma FrozenFixedRippleIsStatic(ml: MathLib, f: RippleParams, pos: Point, t: real)
    requires f.frequency == 0.0 && f.density == 0.0 && Cos(ml, 0.0) == 1.0
    ensures var angle := Atan2(ml, -(pos.y - f.pos.y), pos.x - f.pos.x);
      FixedTerm(ml, f, pos, t) == Point(f.amplitude * Cos(ml, angle), f.amplitude * -Sin(ml, angle))
  {
    var distance := Hypot(ml, pos.x - f.pos.x, pos.y - f.pos.y);
    assert f.frequency * t - f.density * distance == 0.0;
  }

  // ----------------------------------------------------------- expiry

  /** A click ripple has outlived its life time at time `t` (strictly). */
  predicate Expired(c: ClickRippleParams, t: real)
  {
    t - c.startTime > c.lifeTime
  }

  /** The click ripples still alive at `t`, in their original order. */
  function Live(cs: seq<ClickRippleParams>, t: real): (r: seq<ClickRippleParams>)
    ensures |r| <= |cs|
    decreases |cs|
  {
    if cs == [] then []
    else Live(cs[..|cs| - 1], t) + (if Expired(cs[|cs| - 1], t) then [] else [cs[|cs| - 1]])
  }

  /** Every ripple that survives expiry was in the list and has not expired. */
  lemma {:induction false} LiveSound(cs: seq<ClickRippleParams>, t: real)
    ensures forall c :: c in Live(cs, t) ==> c in cs && !Expired(c, t)
    decreases |cs|
  {
    if cs != [] {
      var init := cs[..|cs| - 1];
      LiveSound(init, t);
      assert forall c :: c in init ==> c in cs;
    }
  }

  lemma LiveSnoc(cs: seq<ClickRippleParams>, c: ClickRippleParams, t: real)
    ensures Live(cs + [c], t) == Live(cs, t) + (if Expired(c, t) then [] else [c])
  {
    assert (cs + [c])[..|cs|] == cs;
  }

  /** Filtering distributes over concatenation: the survivors keep their relative order. */
  lemma {:induction false} LiveAppend(a: seq<ClickRippleParams>, b: seq<ClickRippleParams>, t: real)
    ensures Live(a + b, t) == Live(a, t) + Live(b, t)
    decreases |b|
  {
    if b == [] {
      assert a + b == a;
    } else {
      var b' := b[..|b| - 1];
      assert (a + b)[..|a + b| - 1] == a + b';
      LiveAppend(a, b', t);
    }
  }

  /** Every ripple of the list that has not expired survives the filter. */
  lemma {:induction false} LiveKeepsSurvivors(cs: seq<ClickRippleParams>, t: real, c: ClickRippleParams)
    requires c in cs && !Expired(c, t)
    ensures c in Live(cs, t)
    decreases |cs|
  {
    if cs[|cs| - 1] != c {
      assert cs == cs[..|cs| - 1] + [cs[|cs| - 1]];
      LiveKeepsSurvivors(cs[..|cs| - 1], t, c);
    }
  }

  /** Filtering twice at the same time removes nothing more. */
  lemma {:induction false} LiveIdempotent(cs: seq<ClickRippleParams>, t: real)
    ensures Live(Live(cs, t), t) == Live(cs, t)
    decreases |cs|
  {
    if cs != [] {
      var front := cs[..|cs| - 1];
      var last := cs[|cs| - 1];
      var tail := if Expired(last, t) then [] else [last];
      LiveIdempotent(front, t);
      LiveAppend(Live(front, t), tail, t);
      assert Live(tail, t) == tail by {
        if tail != [] {
          assert tail[..0] == [];
        }
      }
    }
  }

  /**
   * A ripple that started at T with life time L is kept by an update at any
   * t <= T + L (so at t = T + L too) and removed by one at t > T + L.
   */
  lemma ClickRippleLifetime(c: ClickRippleParams, t: real)
    ensures c in Live([c], t) <==> t <= c.startTime + c.lifeTime
  {
    assert [c][..0] == [];
  }

  // ----------------------------------------------------------- clamps

  /**
   * The displaced position of vertex `i` of a grid of size `n`: rest position
   * plus offset, after the edge clamps chosen by the vertex's column and row
   * (the update's tests on `i % (n + 1)` and `(n + 1) * n`, which
   * `ColumnRowArithmetic` relates to `Column` and `Row`). Column 0
   * may not move right of x = 0, column n may not move left of its rest x;
   * the first n+2 vertices (the top row and the first vertex of row 1) may not
   * move below y = 0, and the remaining vertices from index (n+1)n on may not
   * move above their rest y. A coordinate its clamp's bound already admits
   * passes through unchanged.
   */
  function Displaced(n: nat, i: nat, rest: Point, offset: Point): (p: Point)
    requires n > 0
    ensures Column(n, i) == 0 ==> p.x <= 0.0
    ensures Column(n, i) == n ==> p.x >= rest.x
    ensures i <= n + 1 ==> p.y <= 0.0
    ensures n + 1 < i && Row(n, i) >= n ==> p.y >= rest.y
    ensures Column(n, i) != 0 && Column(n, i) != n ==> p.x == rest.x + offset.x
    ensures n + 1 < i && Row(n, i) < n ==> p.y == rest.y + offset.y
    ensures Column(n, i) == 0 && rest.x + offset.x <= 0.0 ==> p.x == rest.x + offset.x
    ensures Column(n, i) == n && offset.x >= 0.0 ==> p.x == rest.x + offset.x
    ensures i <= n + 1 && rest.y + offset.y <= 0.0 ==> p.y == rest.y + offset.y
    ensures n + 1 < i && Row(n, i) >= n && offset.y >= 0.0 ==> p.y == rest.y + offset.y
    ensures p.x == rest.x + offset.x || p.x == 0.0 || p.x == rest.x
    ensures p.y == rest.y + offset.y || p.y == 0.0 || p.y == rest.y
  {
    var x := rest.x + offset.x;
    var y := rest.y + offset.y;
    var x' := if Column(n, i) == 0 then (if x > 0.0 then 0.0 else x)
              else if Column(n, i) == n then (if x < rest.x then rest.x else x)
              else x;
    var y' := if i <= n + 1 then (if y > 0.0 then 0.0 else y)
              else if Row(n, i) >= n then (if y < rest.y then rest.y else y)
              else y;
    Point(x', y')
  }

  // ------------------------------------------------------------ alpha

  /** The maximal change of a vertex's alpha from one frame to the next. */
  const AlphaSlew: real := 0.01

  /** How far a vertex moved since the last frame. */
  function Movement(ml: MathLib, last: Point, pos: Point): real
  {
    var dx := pos.x - last.x;
    var dy := pos.y - last.y;
    Hypot(ml, dx, dy)
  }

  /**
   * Alpha before clamping, from the vertex's movement (dx, dy) since the last
   * frame: the default alpha when it moved no more than the threshold,
   * otherwise the default shifted by the excess, weighted by how the movement
   * faces the light and divided by the decay.
   */
  function ShadeAlpha(ml: MathLib, light: LightParams, last: Point, pos: Point): (a: real)
    ensures Movement(ml, last, pos) <= light.minDistance ==> a == light.defaultAlpha
  {
    var dx := pos.x - last.x;
    var dy := pos.y - last.y;
    var distance := Movement(ml, last, pos);
    if distance > light.minDistance then
      Quot(ml, (distance - light.minDistance) * Cos(ml, Atan2(ml, -dy, dx) - light.angle), light.decay) + light.defaultAlpha
    else
      light.defaultAlpha
  }

  /**
   * The alpha a vertex ends the frame with: the shading alpha limited to
   * within AlphaSlew of last frame's alpha, then to [minAlpha, 1].
   */
  function FrameAlpha(ml: MathLib, light: LightParams, last: Vertex, pos: Point): (a: real)
    ensures light.minAlpha <= 1.0 ==> light.minAlpha <= a <= 1.0
    ensures light.minAlpha <= last.color.a - AlphaSlew && last.color.a + AlphaSlew <= 1.0
      ==> last.color.a - AlphaSlew <= a <= last.color.a + AlphaSlew
    ensures var s := ShadeAlpha(ml, light, last.position, pos);
      last.color.a - AlphaSlew <= s <= last.color.a + AlphaSlew && light.minAlpha <= s <= 1.0 ==> a == s
    ensures var s := ShadeAlpha(ml, light, last.position, pos);
      s > last.color.a + AlphaSlew ==> a == Clamp(last.color.a + AlphaSlew, light.minAlpha, 1.0)
    ensures var s := ShadeAlpha(ml, light, last.position, pos);
      s < last.color.a - AlphaSlew ==> a == Clamp(last.color.a - AlphaSlew, light.minAlpha, 1.0)
  {
    var smoothed := Clamp(ShadeAlpha(ml, light, last.position, pos), last.color.a - AlphaSlew, last.color.a + AlphaSlew);
    Clamp(smoothed, light.minAlpha, 1.0)
  }

  /**
   * A vertex that did not move since the last frame, and already had the
   * default alpha, keeps it: with no movement the shading gives the default
   * alpha, which no clamp changes when it lies in [minAlpha, 1].
   */
  lemma StillVertexKeepsDefaultAlpha(ml: MathLib, light: LightParams, last: Vertex)
    requires ml.hypot(0.0, 0.0) == 0.0 && light.minDistance >= 0.0
    requires last.color.a == light.defaultAlpha && light.minAlpha <= light.defaultAlpha <= 1.0
    ensures FrameAlpha(ml, light, last, last.position) == light.defaultAlpha
  {
    assert Movement(ml, last.position, last.position) == 0.0;
  }

  // ----------------------------------------------------------- vertex

  /**
   * Vertex `i` after one frame at time `t`, given its current value `cur`, its
   * rest value `rest` and its value `last` from the previous frame. Only the
   * position and the alpha change; the texture coordinate and the colour
   * channels r, g, b are kept.
   */
  function UpdatedVertex(ml: MathLib, wf: Waveforms, p: EffectParams, i: nat, t: real, cur: Vertex, rest: Vertex, last: Vertex): (v: Vertex)
    requires p.gridSize > 0
    ensures v.texCoord == cur.texCoord
    ensures v.color == cur.color.(a := v.color.a)
    ensures p.light.minAlpha <= 1.0 ==> p.light.minAlpha <= v.color.a <= 1.0
  {
    var pos := Displaced(p.gridSize as int, i, rest.position, Offset(wf, p, rest.position, t));
    Vertex(pos, cur.color.(a := FrameAlpha(ml, p.light, last, pos)), cur.texCoord)
  }

  /**
   * The updated vertex's alpha is the frame alpha for its new position: it
   * is shaded from the distance the vertex moved since the last frame.
   */
  lemma UpdatedAlpha(ml: MathLib, wf: Waveforms, p: EffectParams, i: nat, t: real, cur: Vertex, rest: Vertex, last: Vertex)
    requires p.gridSize > 0
    ensures var v := UpdatedVertex(ml, wf, p, i, t, cur, rest, last);
      v.color.a == FrameAlpha(ml, p.light, last, v.position)
  {
  }

  /** The update of one vertex at time `t`, from its index and its current, rest and last value. */
  function VertexRule(ml: MathLib, wf: Waveforms, p: EffectParams, t: real): (nat, Vertex, Vertex, Vertex) -> Vertex
    requires p.gridSize > 0
  {
    (i: nat, cur: Vertex, rest: Vertex, last: Vertex) => UpdatedVertex(ml, wf, p, i, t, cur, rest, last)
  }

  /** The first `k` vertices, vertex `j` computed by `rule` from `cur[j]`, `rest[j]` and `last[j]`. */
  function Tabulate(rule: (nat, Vertex, Vertex, Vertex) -> Vertex, cur: seq<Vertex>, rest: seq<Vertex>, last: seq<Vertex>, k: nat): (r: seq<Vertex>)
    requires k <= |cur| && k <= |rest| && k <= |last|
    ensures |r| == k
    decreases k
  {
    if k == 0 then []
    else Tabulate(rule, cur, rest, last, k - 1) + [rule(k - 1, cur[k - 1], rest[k - 1], last[k - 1])]
  }

  /** Vertex `j` of the table depends on the `j`-th inputs alone. */
  lemma {:induction false} TabulateAt(rule: (nat, Vertex, Vertex, Vertex) -> Vertex, cur: seq<Vertex>, rest: seq<Vertex>, last: seq<Vertex>, k: nat, j: nat)
    requires k <= |cur| && k <= |rest| && k <= |last| && j < k
    ensures Tabulate(rule, cur, rest, last, k)[j] == rule(j, cur[j], rest[j], last[j])
    decreases k
  {
    if j < k - 1 {
      TabulateAt(rule, cur, rest, last, k - 1, j);
    }
  }

  /** The first `k` vertices after one frame at time `t`. */
  function FrameVertices(ml: MathLib, wf: Waveforms, p: EffectParams, t: real, cur: seq<Vertex>, rest: seq<Vertex>, last: seq<Vertex>, k: nat): (r: seq<Vertex>)
    requires p.gridSize > 0 && k <= |cur| && k <= |rest| && k <= |last|
    ensures |r| == k
  {
    Tabulate(VertexRule(ml, wf, p, t), cur, rest, last, k)
  }

  /** One more vertex of the frame. */
  lemma FrameVerticesStep(ml: MathLib, wf: Waveforms, p: EffectParams, t: real, cur: seq<Vertex>, rest: seq<Vertex>, last: seq<Vertex>, k: nat, v: Vertex)
    requires p.gridSize > 0 && k < |cur| && k < |rest| && k < |last|
    requires v == UpdatedVertex(ml, wf, p, k, t, cur[k], rest[k], last[k])
    ensures FrameVertices(ml, wf, p, t, cur, rest, last, k + 1) == FrameVertices(ml, wf, p, t, cur, rest, last, k) + [v]
  {
  }

  /** Vertex `j` of a frame is the update of vertex `j` alone: vertices do not influence each other. */
  lemma FrameVerticesAt(ml: MathLib, wf: Waveforms, p: EffectParams, t: real, cur: seq<Vertex>, rest: seq<Vertex>, last: seq<Vertex>, k: nat, j: nat)
    requires p.gridSize > 0 && k <= |cur| && k <= |rest| && k <= |last| && j < k
    ensures FrameVertices(ml, wf, p, t, cur, rest, last, k)[j] == UpdatedVertex(ml, wf, p, j, t, cur[j], rest[j], last[j])
  {
    TabulateAt(VertexRule(ml, wf, p, t), cur, rest, last, k, j);
  }

  /** After an update, vertices on the canvas edges stay on their side of the edge. */
  lemma UpdatedVertexEdges(ml: MathLib, wf: Waveforms, p: EffectParams, i: nat, t: real, cur: Vertex, rest: Vertex, last: Vertex)
    requires p.gridSize > 0
    ensures var v, n := UpdatedVertex(ml, wf, p, i, t, cur, rest, last), p.gridSize as int;
      && (i % (n + 1) == 0 ==> v.position.x <= 0.0)
      && (i % (n + 1) == n ==> v.position.x >= rest.position.x)
      && (i <= n + 1 ==> v.position.y <= 0.0)
      && (n + 1 < i && (n + 1) * n <= i ==> v.position.y >= rest.position.y)
  {
    ColumnRowArithmetic(p.gridSize as int, i);
  }

  /** With no emitters the offset is zero everywhere. */
  lemma NoEmittersNoOffset(wf: Waveforms, p: EffectParams, pos: Point, t: real)
    requires p.waves == [] && p.fixedRipples == [] && p.clickRipples == []
    ensures Offset(wf, p, pos, t) == Origin
  {
  }

  /**
   * The top-row test `i <= n + 1` also takes in vertex n+1, the first vertex
   * of row 1. On a mesh whose rows lie below y = 0, that vertex is pulled up
   * to y = 0 even when nothing moves: with no emitters at all it leaves its
   * rest position.
   */
  lemma FirstVertexOfRowOnePinnedToTop(ml: MathLib, wf: Waveforms, p: EffectParams, t: real, cur: Vertex, rest: Vertex, last: Vertex)
    requires p.gridSize > 0
    requires p.waves == [] && p.fixedRipples == [] && p.clickRipples == []
    requires rest.position.y > 0.0
    ensures UpdatedVertex(ml, wf, p, p.gridSize as int + 1, t, cur, rest, last).position.y == 0.0
    ensures UpdatedVertex(ml, wf, p, p.gridSize as int + 1, t, cur, rest, last).position != rest.position
  {
    NoEmittersNoOffset(wf, p, rest.position, t);
  }

  /**
   * With no emitters, every vertex that no clamp applies to stays at its rest
   * position.
   */
  lemma NoEmittersInteriorAtRest(ml: MathLib, wf: Waveforms, p: EffectParams, i: nat, t: real, cur: Vertex, rest: Vertex, last: Vertex)
    requires p.gridSize > 0
    requires p.waves == [] && p.fixedRipples == [] && p.clickRipples == []
    requires var n := p.gridSize as int; i % (n + 1) != 0 && i % (n + 1) != n && n + 1 < i < (n + 1) * n
    ensures UpdatedVertex(ml, wf, p, i, t, cur, rest, last).position == rest.position
  {
    NoEmittersNoOffset(wf, p, rest.position, t);
    ColumnRowArithmetic(p.gridSize as int, i);
  }

  /** The updated position is the clamped rest position plus the offset. */
  lemma UpdatedPosition(ml: MathLib, wf: Waveforms, p: EffectParams, i: nat, t: real, cur: Vertex, rest: Vertex, last: Vertex)
    requires p.gridSize > 0
    ensures UpdatedVertex(ml, wf, p, i, t, cur, rest, last).position
         == Displaced(p.gridSize as int, i, rest.position, Offset(wf, p, rest.position, t))
  {
  }

  /** Offsetting by nothing moves a vertex that no clamp pulls back. */
  lemma DisplacedZeroOffset(n: nat, i: nat, rest: Point)
    requires n > 0
    requires Column(n, i) == 0 ==> rest.x <= 0.0
    requires i <= n + 1 ==> rest.y <= 0.0
    ensures Displaced(n, i, rest, Origin) == rest
  {
  }

  /** A vertex that nothing offsets and no clamp pulls back stays where it is. */
  lemma ZeroOffsetAtRest(ml: MathLib, wf: Waveforms, p: EffectParams, i: nat, t: real, cur: Vertex, rest: Vertex, last: Vertex)
    requires p.gridSize > 0
    requires Offset(wf, p, rest.position, t) == Origin
    requires Column(p.gridSize as int, i) == 0 ==> rest.position.x <= 0.0
    requires i <= p.gridSize as int + 1 ==> rest.position.y <= 0.0
    ensures UpdatedVertex(ml, wf, p, i, t, cur, rest, last).position == rest.position
  {
    UpdatedPosition(ml, wf, p, i, t, cur, rest, last);
    DisplacedZeroOffset(p.gridSize as int, i, rest.position);
  }

  /**
   * At a moment when the emitters' offsets cancel everywhere, every vertex of
   * the lattice built by the grid set-up stays at its rest position, except
   * vertex n+1 (see FirstVertexOfRowOnePinnedToTop).
   */
  lemma ZeroOffsetLatticeAtRest(ml: MathLib, wf: Waveforms, p: EffectParams, w: real, h: real, alpha: real, i: nat, t: real, cur: Vertex, last: Vertex)
    requires p.gridSize > 0
    requires forall pos :: Offset(wf, p, pos, t) == Origin
    requires var n := p.gridSize as int; i < (n + 1) * (n + 1) && i != n + 1
    ensures var rest := GridVertices(p.gridSize as int, w, h, alpha);
      |rest| == (p.gridSize as int + 1) * (p.gridSize as int + 1)
      && UpdatedVertex(ml, wf, p, i, t, cur, rest[i], last).position == rest[i].position
  {
    LatticeTopLeftEdges(p.gridSize as int, w, h, alpha, i);
    ZeroOffsetAtRest(ml, wf, p, i, t, cur, GridVertices(p.gridSize as int, w, h, alpha)[i], last);
  }

  /**
   * With no emitters, every vertex of the lattice built by the grid set-up
   * stays at its rest position, except vertex n+1.
   */
  lemma NoEmittersLatticeAtRest(ml: MathLib, wf: Waveforms, p: EffectParams, w: real, h: real, alpha: real, i: nat, t: real, cur: Vertex, last: Vertex)
    requires p.gridSize > 0
    requires p.waves == [] && p.fixedRipples == [] && p.clickRipples == []
    requires var n := p.gridSize as int; i < (n + 1) * (n + 1) && i != n + 1
    ensures var rest := GridVertices(p.gridSize as int, w, h, alpha);
      |rest| == (p.gridSize as int + 1) * (p.gridSize as int + 1)
      && UpdatedVertex(ml, wf, p, i, t, cur, rest[i], last).position == rest[i].position
  {
    forall pos ensures Offset(wf, p, pos, t) == Origin {
      NoEmittersNoOffset(wf, p, pos, t);
    }
    ZeroOffsetLatticeAtRest(ml, wf, p, w, h, alpha, i, t, cur, last);
  }
}

=== FILE: water_grid.dfy ===
/**
 * The mesh that `initGrid` builds, as functions of the grid size `n`, the
 * canvas size `w` x `h` and the default alpha: an (n+1) x (n+1) lattice of
 * vertices in row-major order and six indices (two triangles) per cell.
 * The functions grow the buffers exactly as the builder's nested loops do, by
 * appending one vertex or one cell at a time; the lemmas give them their
 * closed forms.
 */
module WaterGrid {
  import opened WaterParams

  /**
   * `k` steps of length `d` laid end to end from 0: the coordinate the
   * builder reaches by adding one cell size per column or row.
   */
  function Steps(k: nat, d: real): real
    decreases k
  {
    if k == 0 then 0.0 else Steps(k - 1, d) + d
  }

  /** In exact arithmetic, accumulating `k` steps of `d` gives `k * d`. */
  lemma {:induction false} StepsIsProduct(k: nat, d: real)
    ensures Steps(k, d) == k as real * d
    decreases k
  {
    if k > 0 {
      StepsIsProduct(k - 1, d);
      assert k as real * d == (k - 1) as real * d + d by {
        assert k as real == (k - 1) as real + 1.0;
      }
    }
  }

  /**
   * The vertex in row `y`, column `x`: interior coordinates are `x` cell
   * widths and `y` cell heights from the origin; the last column and the last
   * row are pinned to exactly `w` and `h`, with texture coordinate 1.
   */
  function GridVertex(n: nat, w: real, h: real, alpha: real, y: nat, x: nat): Vertex
    requires n > 0
  {
    Vertex(
      Point(if x == n then w else Steps(x, w / n as real),
            if y == n then h else Steps(y, h / n as real)),
      Color(1.0, 1.0, 1.0, alpha),
      Point(if x == n then 1.0 else Steps(x, 1.0 / n as real),
            if y == n then 1.0 else Steps(y, 1.0 / n as real)))
  }

  /** The first `x` vertices of row `y`. */
  function RowPrefix(n: nat, w: real, h: real, alpha: real, y: nat, x: nat): (r: seq<Vertex>)
    requires n > 0
    ensures |r| == x
    decreases x
  {
    if x == 0 then [] else RowPrefix(n, w, h, alpha, y, x - 1) + [GridVertex(n, w, h, alpha, y, x - 1)]
  }

  /** The first `y` complete rows. */
  function Rows(n: nat, w: real, h: real, alpha: real, y: nat): (r: seq<Vertex>)
    requires n > 0
    ensures |r| == y * (n + 1)
    decreases y
  {
    if y == 0 then [] else Rows(n, w, h, alpha, y - 1) + RowPrefix(n, w, h, alpha, y - 1, n + 1)
  }

  /** The whole vertex buffer. */
  function GridVertices(n: nat, w: real, h: real, alpha: real): (r: seq<Vertex>)
    requires n > 0
    ensures |r| == (n + 1) * (n + 1)
  {
    Rows(n, w, h, alpha, n + 1)
  }

  /** The six indices of cell (y, x): triangles (tl, tr, bl) and (tr, br, bl). */
  function CellIndices(n: nat, y: nat, x: nat): (r: seq<int>)
    ensures |r| == 6
  {
    var topLeft := y * (n + 1) + x;
    var topRight := topLeft + 1;
    var bottomLeft := (y + 1) * (n + 1) + x;
    var bottomRight := bottomLeft + 1;
    [topLeft, topRight, bottomLeft, topRight, bottomRight, bottomLeft]
  }

  /** The indices of the first `x` cells of cell row `y`. */
  function CellRowPrefix(n: nat, y: nat, x: nat): (r: seq<int>)
    ensures |r| == 6 * x
    decreases x
  {
    if x == 0 then [] else CellRowPrefix(n, y, x - 1) + CellIndices(n, y, x - 1)
  }

  /** The indices of the first `y` complete cell rows. */
  function CellRows(n: nat, y: nat): (r: seq<int>)
    ensures |r| == 6 * (y * n)
    decreases y
  {
    if y == 0 then [] else CellRows(n, y - 1) + CellRowPrefix(n, y - 1, n)
  }

  /** The whole index buffer. */
  function GridIndices(n: nat): (r: seq<int>)
    ensures |r| == 6 * (n * n)
  {
    CellRows(n, n)
  }

  /** Every element of `s` is a valid index into a buffer of `count` vertices. */
  predicate IndicesBelow(s: seq<int>, count: nat)
  {
    forall k :: 0 <= k < |s| ==> 0 <= s[k] < count
  }

  /** The column of vertex `i` in the row-major lattice of n + 1 columns. */
  function Column(n: nat, i: nat): (c: nat)
    ensures c <= n
    decreases i
  {
    if i <= n then i else Column(n, i - (n + 1))
  }

  /** The row of vertex `i` in the row-major lattice of n + 1 columns. */
  function Row(n: nat, i: nat): nat
    decreases i
  {
    if i <= n then 0 else Row(n, i - (n + 1)) + 1
  }

  // ---------------------------------------------------------------- vertices

  lemma {:induction false} RowPrefixAt(n: nat, w: real, h: real, alpha: real, y: nat, x: nat, j: nat)
    requires n > 0 && j < x
    ensures RowPrefix(n, w, h, alpha, y, x)[j] == GridVertex(n, w, h, alpha, y, j)
    decreases x
  {
    if j < x - 1 {
      RowPrefixAt(n, w, h, alpha, y, x - 1, j);
    }
  }

  lemma MulLeq(a: nat, b: nat, c: nat)
    requires a <= b
    ensures a * c <= b * c
  {
  }

  lemma {:induction false} RowsAt(n: nat, w: real, h: real, alpha: real, y: nat, yy: nat, x: nat)
    requires n > 0 && yy < y && x <= n
    ensures yy * (n + 1) + x < |Rows(n, w, h, alpha, y)|
    ensures Rows(n, w, h, alpha, y)[yy * (n + 1) + x] == GridVertex(n, w, h, alpha, yy, x)
    decreases y
  {
    var prev := Rows(n, w, h, alpha, y - 1);
    var row := RowPrefix(n, w, h, alpha, y - 1, n + 1);
    assert Rows(n, w, h, alpha, y) == prev + row;
    if yy < y - 1 {
      RowsAt(n, w, h, alpha, y - 1, yy, x);
    } else {
      assert yy * (n + 1) == |prev|;
      RowPrefixAt(n, w, h, alpha, y - 1, n + 1, x);
    }
  }

  lemma {:induction false} RowColumnSplit(n: nat, i: nat)
    ensures i == Row(n, i) * (n + 1) + Column(n, i)
    decreases i
  {
    if i > n {
      RowColumnSplit(n, i - (n + 1));
      assert (Row(n, i - (n + 1)) + 1) * (n + 1) == Row(n, i - (n + 1)) * (n + 1) + (n + 1);
    }
  }

  /**
   * The index tests of the update, in the lattice's terms: `i % (n + 1)` is
   * the column of vertex `i`, and `i >= (n + 1) * n` holds exactly on the
   * last row.
   */
  lemma ColumnRowArithmetic(n: nat, i: nat)
    ensures Column(n, i) == i % (n + 1)
    ensures (n + 1) * n <= i <==> Row(n, i) >= n
  {
    var r, c := Row(n, i), Column(n, i);
    RowColumnSplit(n, i);
    DivModUnique(i, n + 1, r, c);
    if r >= n {
      MulLeq(n, r, n + 1);
    } else {
      MulLeq(r, n - 1, n + 1);
      assert (n - 1) * (n + 1) + n < (n + 1) * n;
    }
  }

  /**
   * On the lattice the left column lies on x = 0 and the top row on y = 0,
   * so the clamps toward the top-left edges leave those vertices alone.
   */
  lemma LatticeTopLeftEdges(n: nat, w: real, h: real, alpha: real, i: nat)
    requires n > 0 && i < (n + 1) * (n + 1)
    ensures |GridVertices(n, w, h, alpha)| == (n + 1) * (n + 1)
    ensures Column(n, i) == 0 ==> GridVertices(n, w, h, alpha)[i].position.x == 0.0
    ensures i <= n ==> GridVertices(n, w, h, alpha)[i].position.y == 0.0
  {
    var r, c := Row(n, i), Column(n, i);
    RowColumnSplit(n, i);
    MulStep(n, r, n + 1);
    assert (n + 1) * (n + 1) == n * (n + 1) + (n + 1);
    GridBoundary(n, w, h, alpha, r, c);
  }

  /** Division with remainder has one result. */
  lemma DivModUnique(a: nat, d: nat, q: nat, r: nat)
    requires d > 0 && r < d && a == q * d + r
    ensures r == a % d
  {
    var q': nat, r' := a / d, a % d;
    assert a == q' * d + r';
    MulStep(q, q', d);
    MulStep(q', q, d);
  }

  /** Multiples of `d` at distinct factors lie at least `d` apart. */
  lemma MulStep(x: nat, y: nat, d: nat)
    ensures x < y ==> x * d + d <= y * d
  {
    if x < y {
      MulLeq(x + 1, y, d);
      assert (x + 1) * d == x * d + d;
    }
  }

  /**
   * The vertex buffer is row-major: it holds (n+1)^2 vertices and the one at
   * y*(n+1)+x is the vertex of row y, column x.
   */
  lemma GridVertexAt(n: nat, w: real, h: real, alpha: real, y: nat, x: nat)
    requires n > 0 && y <= n && x <= n
    ensures |GridVertices(n, w, h, alpha)| == (n + 1) * (n + 1)
    ensures y * (n + 1) + x < (n + 1) * (n + 1)
    ensures GridVertices(n, w, h, alpha)[y * (n + 1) + x] == GridVertex(n, w, h, alpha, y, x)
  {
    RowsAt(n, w, h, alpha, n + 1, y, x);
  }

  /**
   * Geometry of the built mesh: column 0 and row 0 sit at coordinate 0 and
   * texture coordinate 0, column n and row n at exactly `w` and `h` with
   * texture coordinate 1, and every vertex has colour (1, 1, 1, alpha).
   */
  lemma GridBoundary(n: nat, w: real, h: real, alpha: real, y: nat, x: nat)
    requires n > 0 && y <= n && x <= n
    ensures var v := GridVertices(n, w, h, alpha)[y * (n + 1) + x];
      && v.color == Color(1.0, 1.0, 1.0, alpha)
      && (x == 0 ==> v.position.x == 0.0 && v.texCoord.x == 0.0)
      && (x == n ==> v.position.x == w && v.texCoord.x == 1.0)
      && (x < n ==> v.position.x == x as real * (w / n as real))
      && (y == 0 ==> v.position.y == 0.0 && v.texCoord.y == 0.0)
      && (y == n ==> v.position.y == h && v.texCoord.y == 1.0)
      && (y < n ==> v.position.y == y as real * (h / n as real))
  {
    GridVertexAt(n, w, h, alpha, y, x);
    GridVertexColumn(n, w, h, alpha, y, x);
    GridVertexRow(n, w, h, alpha, y, x);
  }

  lemma GridVertexColumn(n: nat, w: real, h: real, alpha: real, y: nat, x: nat)
    requires n > 0 && x <= n
    ensures var v := GridVertex(n, w, h, alpha, y, x);
      && (x == 0 ==> v.position.x == 0.0 && v.texCoord.x == 0.0)
      && (x == n ==> v.position.x == w && v.texCoord.x == 1.0)
      && (x < n ==> v.position.x == x as real * (w / n as real))
  {
    StepsIsProduct(x, w / n as real);
    StepsIsProduct(x, 1.0 / n as real);
  }

  lemma GridVertexRow(n: nat, w: real, h: real, alpha: real, y: nat, x: nat)
    requires n > 0 && y <= n
    ensures var v := GridVertex(n, w, h, alpha, y, x);
      && (y == 0 ==> v.position.y == 0.0 && v.texCoord.y == 0.0)
      && (y == n ==> v.position.y == h && v.texCoord.y == 1.0)
      && (y < n ==> v.position.y == y as real * (h / n as real))
  {
    StepsIsProduct(y, h / n as real);
    StepsIsProduct(y, 1.0 / n as real);
  }

  /** The four corners of the mesh sit exactly on the corners of the canvas. */
  lemma GridCorners(n: nat, w: real, h: real, alpha: real)
    requires n > 0
    ensures var vs := GridVertices(n, w, h, alpha);
      && |vs| == (n + 1) * (n + 1)
      && vs[0].position == Point(0.0, 0.0) && vs[0].texCoord == Point(0.0, 0.0)
      && vs[n].position == Point(w, 0.0) && vs[n].texCoord == Point(1.0, 0.0)
      && vs[n * (n + 1)].position == Point(0.0, h) && vs[n * (n + 1)].texCoord == Point(0.0, 1.0)
      && vs[n * (n + 1) + n].position == Point(w, h) && vs[n * (n + 1) + n].texCoord == Point(1.0, 1.0)
  {
    GridVertexAt(n, w, h, alpha, 0, 0);
    GridVertexAt(n, w, h, alpha, 0, n);
    GridVertexAt(n, w, h, alpha, n, 0);
    GridVertexAt(n, w, h, alpha, n, n);
  }

  // ----------------------------------------------------------------- indices

  /** Both triangles of a cell inside the lattice use only vertices of the lattice. */
  lemma CellIndicesBelow(n: nat, y: nat, x: nat)
    requires y < n && x < n
    ensures IndicesBelow(CellIndices(n, y, x), (n + 1) * (n + 1))
  {
    MulLeq(y + 1, n, n + 1);
    assert (n + 1) * (n + 1) == n * (n + 1) + n + 1;
  }

  lemma IndicesBelowAppend(a: seq<int>, b: seq<int>, count: nat)
    requires IndicesBelow(a, count) && IndicesBelow(b, count)
    ensures IndicesBelow(a + b, count)
  {
  }

  lemma {:induction false} CellRowPrefixBelow(n: nat, y: nat, x: nat)
    requires y < n && x <= n
    ensures IndicesBelow(CellRowPrefix(n, y, x), (n + 1) * (n + 1))
    decreases x
  {
    if x > 0 {
      CellRowPrefixBelow(n, y, x - 1);
      CellIndicesBelow(n, y, x - 1);
      IndicesBelowAppend(CellRowPrefix(n, y, x - 1), CellIndices(n, y, x - 1), (n + 1) * (n + 1));
    }
  }

  lemma {:induction false} CellRowsBelow(n: nat, y: nat)
    requires y <= n
    ensures IndicesBelow(CellRows(n, y), (n + 1) * (n + 1))
    decreases y
  {
    if y > 0 {
      CellRowsBelow(n, y - 1);
      CellRowPrefixBelow(n, y - 1, n);
      IndicesBelowAppend(CellRows(n, y - 1), CellRowPrefix(n, y - 1, n), (n + 1) * (n + 1));
    }
  }

  /** The index buffer holds 6n^2 indices, each naming one of the (n+1)^2 vertices. */
  lemma GridIndicesInRange(n: nat)
    ensures |GridIndices(n)| == 6 * (n * n)
    ensures IndicesBelow(GridIndices(n), (n + 1) * (n + 1))
  {
    CellRowsBelow(n, n);
  }

  lemma {:induction false} CellRowPrefixAt(n: nat, y: nat, x: nat, c: nat, j: nat)
    requires c < x && j < 6
    ensures CellRowPrefix(n, y, x)[6 * c + j] == CellIndices(n, y, c)[j]
    decreases x
  {
    if c < x - 1 {
      CellRowPrefixAt(n, y, x - 1, c, j);
    }
  }

  lemma LastCellRowAt(n: nat, y: nat, x: nat, j: nat)
    requires 0 < y && x < n && j < 6
    ensures 6 * ((y - 1) * n + x) + j < |CellRows(n, y)|
    ensures CellRows(n, y)[6 * ((y - 1) * n + x) + j] == CellIndices(n, y - 1, x)[j]
  {
    var prev := CellRows(n, y - 1);
    var row := CellRowPrefix(n, y - 1, n);
    assert CellRows(n, y) == prev + row;
    var m := (y - 1) * n;
    assert |prev| == 6 * m;
    assert 6 * (m + x) + j == |prev| + (6 * x + j);
    CellRowPrefixAt(n, y - 1, n, x, j);
  }

  /** The first `a` cell rows are a prefix of the first `b`. */
  lemma {:induction false} CellRowsPrefix(n: nat, a: nat, b: nat)
    requires a <= b
    ensures |CellRows(n, a)| <= |CellRows(n, b)|
    ensures CellRows(n, b)[..|CellRows(n, a)|] == CellRows(n, a)
    decreases b
  {
    if a < b {
      CellRowsPrefix(n, a, b - 1);
      var prev := CellRows(n, b - 1);
      assert CellRows(n, b) == prev + CellRowPrefix(n, b - 1, n);
      assert CellRows(n, b)[..|prev|] == prev;
    }
  }

  lemma CellRowsAt(n: nat, y: nat, yy: nat, x: nat, j: nat)
    requires yy < y && x < n && j < 6
    ensures 6 * (yy * n + x) + j < |CellRows(n, y)|
    ensures CellRows(n, y)[6 * (yy * n + x) + j] == CellIndices(n, yy, x)[j]
  {
    CellRowsPrefix(n, yy + 1, y);
    LastCellRowAt(n, yy + 1, x, j);
    var k, prefix := 6 * (yy * n + x) + j, CellRows(n, yy + 1);
    assert CellRows(n, y)[k] == CellRows(n, y)[..|prefix|][k];
  }

  /**
   * Cell (y, x) contributes, at positions 6(yN+x) .. 6(yN+x)+5, the indices
   * tl, tl+1, bl, tl+1, bl+1, bl with tl = y(n+1)+x and bl = (y+1)(n+1)+x.
   */
  lemma GridCellAt(n: nat, y: nat, x: nat)
    requires y < n && x < n
    ensures 6 * (y * n + x) + 5 < |GridIndices(n)|
    ensures var tl, bl, s := y * (n + 1) + x, (y + 1) * (n + 1) + x, GridIndices(n);
      var k := 6 * (y * n + x);
      s[k] == tl && s[k + 1] == tl + 1 && s[k + 2] == bl
      && s[k + 3] == tl + 1 && s[k + 4] == bl + 1 && s[k + 5] == bl
  {
    CellRowsAt(n, n, y, x, 0);
    CellRowsAt(n, n, y, x, 1);
    CellRowsAt(n, n, y, x, 2);
    CellRowsAt(n, n, y, x, 3);
    CellRowsAt(n, n, y, x, 4);
    CellRowsAt(n, n, y, x, 5);
  }
}

=== FILE: water_math.dfy ===
/**
 * The numeric primitives the effect uses. The transcendental functions of the
 * C math library are not modelled: they are carried, uninterpreted, by a
 * `MathLib` value, so every statement about the effect holds for whatever
 * functions they are.
 */
module WaterMath {

  /**
   * sin, cos, atan2 and exp as the effect calls them; sqrt as the effect
   * always calls it, on dx * dx + dy * dy, to get the length of a vector
   * (dx, dy); and the value a float division by zero yields (an infinity or
   * NaN, which reals lack).
   */
  datatype MathLib = MathLib(
    sin: real -> real,
    cos: real -> real,
    hypot: (real, real) -> real,
    atan2: (real, real) -> real,
    exp: real -> real,
    divByZero: real -> real)

  function Sin(ml: MathLib, x: real): real { ml.sin(x) }

  function Cos(ml: MathLib, x: real): real { ml.cos(x) }

  /** The length sqrt(dx * dx + dy * dy) of the vector (dx, dy). */
  function Hypot(ml: MathLib, dx: real, dy: real): real { ml.hypot(dx, dy) }

  function Atan2(ml: MathLib, y: real, x: real): real { ml.atan2(y, x) }

  function Exp(ml: MathLib, x: real): real { ml.exp(x) }

  /** Float division: the real quotient whenever the divisor is not zero. */
  function Quot(ml: MathLib, a: real, b: real): (q: real)
    ensures b != 0.0 ==> q * b == a
  {
    if b != 0.0 then a / b else ml.divByZero(a)
  }

  function Abs(x: real): (r: real)
    ensures r >= 0.0 && (r == x || r == -x)
  {
    if x < 0.0 then -x else x
  }

  /**
   * SDL_clamp(x, lo, hi): `lo` when x < lo, otherwise `hi` when x > hi,
   * otherwise x. With lo <= hi the result lies in [lo, hi] and equals x when
   * x is already there.
   */
  function Clamp(x: real, lo: real, hi: real): (r: real)
    ensures lo <= hi ==> lo <= r <= hi
    ensures lo <= x <= hi ==> r == x
    ensures x < lo ==> r == lo
    ensures lo <= x && hi < x ==> r == hi
    ensures r == x || r == lo || r == hi
  {
    if x < lo then lo else if x > hi then hi else x
  }
}

=== FILE: water_params.dfy ===
/**
 * The parameter records of the water effect and their default member
 * initialisers, together with the vertex record that the mesh buffers hold.
 * Single-precision floats are modelled as exact reals.
 */
module WaterParams {

  /** A C++ `int` (32-bit, signed). */
  newtype int32 = x: int | -0x8000_0000 <= x < 0x8000_0000

  /** A 2D point or vector (SDL_FPoint). */
  datatype Point = Point(x: real, y: real)

  const Origin: Point := Point(0.0, 0.0)

  function Add(p: Point, q: Point): Point
  {
    Point(p.x + q.x, p.y + q.y)
  }

  /** A radial ripple source: its strength, speed, spatial density and centre. */
  datatype RippleParams = RippleParams(amplitude: real, frequency: real, density: real, pos: Point)

  /** A transient ripple: a radial source that starts at `startTime` and lives `lifeTime` seconds. */
  datatype ClickRippleParams = ClickRippleParams(rippleParams: RippleParams, startTime: real, lifeTime: real)

  /** A planar wave travelling in direction `angle` (radians), with phase offset `phi`. */
  datatype WaveParams = WaveParams(amplitude: real, frequency: real, density: real, angle: real, phi: real)

  /** A planar wave together with its cached propagation normal (A, B) = (cos angle, -sin angle). */
  datatype WaveCalculatedParams = WaveCalculatedParams(A: real, B: real, basicParams: WaveParams)

  /** Shading: displacement threshold, alpha bounds, decay and light direction. */
  datatype LightParams = LightParams(minDistance: real, defaultAlpha: real, minAlpha: real, decay: real, angle: real)

  /** The whole configuration of the effect (the `_params` record). */
  datatype EffectParams = EffectParams(
    gridSize: int32,
    waves: seq<WaveCalculatedParams>,
    fixedRipples: seq<RippleParams>,
    maxClickRipple: int32,
    clickRipples: seq<ClickRippleParams>,
    defaultClickRipple: ClickRippleParams,
    light: LightParams)

  /** An RGBA colour with float channels (SDL_FColor). */
  datatype Color = Color(r: real, g: real, b: real, a: real)

  /** A mesh vertex (SDL_Vertex): position, colour and texture coordinate. */
  datatype Vertex = Vertex(position: Point, color: Color, texCoord: Point)

  // Default member initialisers of the records above.

  const DefaultRipple: RippleParams := RippleParams(0.0, 0.0, 0.0, Point(0.0, 0.0))

  const DefaultClickRipple: ClickRippleParams := ClickRippleParams(DefaultRipple, 0.0, 0.0)

  const DefaultWave: WaveParams := WaveParams(0.0, 0.0, 0.0, 0.0, 0.0)

  const DefaultLight: LightParams := LightParams(0.0, 1.0, 0.0, 10.0, 0.0)

  const DefaultEffectParams: EffectParams :=
    EffectParams(30, [], [], 5, [], DefaultClickRipple, DefaultLight)

  /** A default-constructed configuration: grid 30, at most 5 click ripples, no emitters. */
  lemma DefaultEffectParamsValues()
    ensures DefaultEffectParams.gridSize == 30 && DefaultEffectParams.maxClickRipple == 5
    ensures DefaultEffectParams.waves == [] && DefaultEffectParams.fixedRipples == []
    ensures DefaultEffectParams.clickRipples == []
    ensures DefaultEffectParams.defaultClickRipple == DefaultClickRipple
    ensures DefaultEffectParams.light == DefaultLight
  {
  }

  /** Default shading: no threshold, fully opaque, no lower alpha bound, decay 10, angle 0. */
  lemma DefaultLightValues()
    ensures DefaultLight.minDistance == 0.0 && DefaultLight.defaultAlpha == 1.0
    ensures DefaultLight.minAlpha == 0.0 && DefaultLight.decay == 10.0 && DefaultLight.angle == 0.0
  {
  }

  /** Default ripple and click-ripple records are all zero. */
  lemma DefaultRippleValues()
    ensures DefaultRipple.amplitude == 0.0 && DefaultRipple.frequency == 0.0
    ensures DefaultRipple.density == 0.0 && DefaultRipple.pos == Point(0.0, 0.0)
    ensures DefaultClickRipple.rippleParams == DefaultRipple
    ensures DefaultClickRipple.startTime == 0.0 && DefaultClickRipple.lifeTime == 0.0
  {
  }
}

=== FILE: water_store.dfy ===
/**
 * The value-level rules of the parameter store: the cached normal of a planar
 * wave, the capacity rule for click ripples and the click-ripple template.
 * The mutating setters themselves are methods of `Water.WaterEffect`.
 */
module WaterStore {
  import opened WaterParams
  import opened WaterMath

  /** The cached normal of `w` agrees with its angle. */
  predicate Calculated(ml: MathLib, w: WaveCalculatedParams)
  {
    w.A == Cos(ml, w.basicParams.angle) && w.B == -Sin(ml, w.basicParams.angle)
  }

  /** The record `addWave` stores for `p`: `p` itself with its normal cached. */
  function CalculateWave(ml: MathLib, p: WaveParams): (w: WaveCalculatedParams)
    ensures w.basicParams == p && Calculated(ml, w)
  {
    WaveCalculatedParams(Cos(ml, p.angle), -Sin(ml, p.angle), p)
  }

  /** 2^64: a `size_t` is taken to be 64 bits wide. */
  const SizeTModulus: int := 0x1_0000_0000_0000_0000

  /** The value of an `int` converted to `size_t`: a negative value wraps around. */
  function AsSizeT(m: int32): (r: nat)
    ensures m >= 0 ==> r == m as int
    ensures m < 0 ==> r >= SizeTModulus - 0x8000_0000
  {
    if m < 0 then m as int + SizeTModulus else m as int
  }

  /** A list of `count` click ripples can take one more under the limit `max`. */
  predicate HasRoom(count: nat, max: int32)
  {
    count < AsSizeT(max)
  }

  /** A negative limit converts to a huge unsigned value, so it caps nothing in practice. */
  lemma NegativeMaxIsNoCap(count: nat, max: int32)
    requires max < 0 && count < 0x8000_0000_0000_0000
    ensures HasRoom(count, max)
  {
  }

  /** A non-negative limit is a plain upper bound on the count. */
  lemma NonNegativeMaxIsCap(count: nat, max: int32)
    requires max >= 0
    ensures HasRoom(count, max) <==> count < max as int
  {
  }

  /**
   * The click-ripple list after `addClickRipple(p)`: `p` is appended exactly
   * when the list has room, and otherwise the list is left as it is.
   */
  function AddClick(clicks: seq<ClickRippleParams>, max: int32, p: ClickRippleParams): (r: seq<ClickRippleParams>)
    ensures HasRoom(|clicks|, max) ==> |r| == |clicks| + 1 && r[|clicks|] == p
    ensures !HasRoom(|clicks|, max) ==> |r| == |clicks|
    ensures r[..|clicks|] == clicks
  {
    if HasRoom(|clicks|, max) then clicks + [p] else clicks
  }

  /** The list after a series of `addClickRipple` calls, in order. */
  function AddClicks(clicks: seq<ClickRippleParams>, max: int32, ps: seq<ClickRippleParams>): (r: seq<ClickRippleParams>)
    ensures |clicks| <= |r| <= |clicks| + |ps|
    ensures r[..|clicks|] == clicks
    decreases |ps|
  {
    if ps == [] then clicks else AddClicks(AddClick(clicks, max, ps[0]), max, ps[1..])
  }

  function Min(a: int, b: int): int
  {
    if a < b then a else b
  }

  /**
   * Under a non-negative limit, inserting ripples one by one keeps the ripples
   * already there, in front, and fills the list up to the limit and no further.
   */
  lemma {:induction false} AddClicksSaturate(clicks: seq<ClickRippleParams>, max: int32, ps: seq<ClickRippleParams>)
    requires max >= 0 && |clicks| <= max as int
    ensures |AddClicks(clicks, max, ps)| == Min(|clicks| + |ps|, max as int)
    ensures |clicks| <= |AddClicks(clicks, max, ps)| && AddClicks(clicks, max, ps)[..|clicks|] == clicks
    decreases |ps|
  {
    if ps != [] {
      var next := AddClick(clicks, max, ps[0]);
      AddClicksSaturate(next, max, ps[1..]);
      var r := AddClicks(next, max, ps[1..]);
      assert r[..|next|] == next;
      assert r[..|clicks|] == r[..|next|][..|clicks|];
    }
  }

  /** With the default limit of 5, six insertions into an empty list leave five ripples. */
  lemma SixInsertsUnderDefaultCap(ps: seq<ClickRippleParams>)
    requires |ps| == 6
    ensures |AddClicks([], DefaultEffectParams.maxClickRipple, ps)| == 5
  {
    AddClicksSaturate([], DefaultEffectParams.maxClickRipple, ps);
  }

  /**
   * The ripple `addDefaultClickRipple(x, y, startTime)` builds: the template
   * with only its centre and its start time replaced.
   */
  function FromTemplate(template: ClickRippleParams, x: real, y: real, startTime: real): (c: ClickRippleParams)
    ensures c.rippleParams.pos == Point(x, y) && c.startTime == startTime
    ensures c.lifeTime == template.lifeTime
    ensures c.rippleParams.amplitude == template.rippleParams.amplitude
    ensures c.rippleParams.frequency == template.rippleParams.frequency
    ensures c.rippleParams.density == template.rippleParams.density
  {
    template.(startTime := startTime, rippleParams := template.rippleParams.(pos := Point(x, y)))
  }
}
